=== FILE: README.md ===
# A model of the software factory's build pipeline

The repository is a multi-agent "software factory". A user request goes through a fixed
pipeline of language-model agents:

- requirements
- coding
- review
- documentation
- QA
- deployment
- UI

The orchestrator then extracts the files the agents wrote into a workspace, runs the unit
tests found there and reports the results on a dashboard. This project models that
pipeline's deterministic core in Dafny:

- `Workflow` (workflow.py) covers `initiate_workflow` and `run_workflow`:
  - the empty-request check;
  - the two-message opening of the transcript;
  - the stage loop with its reply fallback and its single `coding_agent` retry after a review that asks for `FIX_REQUIRED`;
  - the extraction of files from the transcript;
  - the test phase, whose failure is absorbed;
  - the mapping of exceptions to error results.
- `Extractor` (workflow.py:157-177) covers the file-block pattern. It gives:
  - an executable leftmost, non-overlapping matcher for the DOTALL pattern `===BEGIN_FILE:([^\s]+)===\s*\n(.*?)\n===END_FILE===`;
  - proofs that the matcher finds exactly the pattern's match at each position, with `\s*` greedy and the content lazy;
  - the write loop over the workspace, in which a write may fail and the last write wins.
- `TestExecutor` (utils/test_executor.py) covers:
  - test-file discovery over a directory listing;
  - the unittest and pytest output parsers;
  - the classification of one file's subprocess outcome;
  - the roll-up of `execute_all_tests`.
- `Dashboard` (app.py) covers `is_token_limit_error` and the banner that `display_test_results` picks.
- `UniqueBsts` (workspace/main.py) covers `uniqueBSTs`, a sample program the pipeline generated. It is the Catalan-number table, together with a reference enumeration of binary tree shapes.
- `Text` and `Wrappers` are the Python string operations the code relies on and an `Option` type:
  - `str.strip`, `str.split`, `str.lower`, `in`, `int()`.

Everything outside the orchestrator is a parameter:

- the agents' replies, as a function from stage and transcript to a reply;
- whether the model setup or the workspace directory raises;
- whether a file write succeeds;
- the directory listing;
- each test subprocess's outcome.

## Model

| member | source | states |
|---|---|---|
| Text.FindIffContains | workflow.py:138 | The substring search finds a position exactly when the pattern occurs in the text, which is what Python's `in` tests. |
| Text.Strip | workflow.py:167-169 | `strip()` yields a slice of its input. Only whitespace is removed before and after it, and the slice neither starts nor ends with whitespace. |
| Text.BlankIffAllSpace | workflow.py:50 | `not s.strip()` holds exactly when every character of `s` is whitespace, the empty string included. |
| Text.StripNoSpace | workflow.py:167 | Stripping a text without whitespace returns it unchanged. |
| Text.Split | utils/test_executor.py:56 | `split('\n')` gives at least one part, and no part holds the separator. |
| Text.JoinSplit | utils/test_executor.py:56 | Joining the parts of `split(sep)` with `sep` gives back the text, so the line split loses and invents nothing. |
| Text.Before | utils/test_executor.py:71 | `split(pat)[0]` is the text before the first occurrence of `pat`: the whole text when `pat` does not occur, and otherwise the prefix that ends exactly where `pat` first starts, with no occurrence starting inside it. |
| Text.Words | utils/test_executor.py:59 | `split()` yields non-empty words that contain no whitespace. |
| Text.WordsCoverText | utils/test_executor.py:59 | The words of `split()`, put together, are the text with its whitespace removed: no character is lost. |
| Text.WordsAreRuns | utils/test_executor.py:59 | `split()` splits at maximal runs: an all-whitespace text has no words, leading whitespace is skipped, and a leading non-space run that ends at whitespace or at the end of the text is the first word, followed by the words of the rest. |
| Text.LowerForgetsCase | app.py:47 | `lower()` is idempotent and gives the same text for the upper-cased input. |
| Text.ParseDecimal | utils/test_executor.py:63 | `int()` reads a decimal numeral back to the number it writes. |
| Text.ParseNegativeDecimal | utils/test_executor.py:63 | `int()` reads a minus sign followed by a numeral back to the negative number. |
| Text.ParseInt | utils/test_executor.py:63 | `int()` succeeds exactly when the stripped text is an optionally signed run of decimal digits, and gives a negative value only after a minus sign. |
| Extractor.PickBody | workflow.py:162 | The backtracking of `\s*\n`: a chosen content start follows a newline inside the whitespace run, the end marker found is the first one after it, and no later newline of the run is followed by an end marker at all, so `\s*` took as much as it could. Without a choice, no newline of the run is followed by an end marker. |
| Extractor.MatchAt | workflow.py:162 | A match ends inside the message, past its start, and its name group is non-empty and free of whitespace. |
| Extractor.MatchAtSound | workflow.py:162 | Every match the matcher returns is a lazy match of the pattern: begin marker, name, `===`, whitespace, newline, content, end marker, with no end marker inside the content. |
| Extractor.MatchAtComplete | workflow.py:162 | Wherever the pattern's shape occurs at a position, the matcher finds a match at that position. |
| Extractor.LazyMatchUnique | workflow.py:162 | At one position the pattern has at most one match with a greedy `\s*` and a lazy content: name, whitespace, content and end are all fixed by the text. |
| Extractor.MatchAtIsTheMatch | workflow.py:162 | The matcher returns a match at a position exactly when it is the pattern's greedy-whitespace, lazy-content match there. |
| Extractor.ScanEmptyIff | workflow.py:163 | `findall` from a position returns nothing exactly when no later position starts a match. |
| Extractor.ScanFrom | workflow.py:163 | `findall` from a position returns blocks with non-empty names free of whitespace, at most one per remaining character; `Extractor.ScanFirstMatch` fixes the rest. |
| Extractor.ScanFirstMatch | workflow.py:163 | `findall` from a position skips the positions without a match, returns the block of the leftmost match first, and resumes at that match's end, so matches never overlap. |
| Extractor.FindAll | workflow.py:163 | `findall` over a message returns nothing exactly when no position of the message starts a match. Otherwise it returns the leftmost match's block followed by the blocks found from that match's end on. |
| Extractor.ShapeYieldsBlock | workflow.py:162-163 | A message that contains the pattern's shape anywhere yields at least one block. |
| Extractor.MatchNeedsEndMarker | workflow.py:162 | A match can only exist in a message that contains `\n===END_FILE===`. |
| Extractor.BlocksNeedEndMarker | workflow.py:162-163 | A message without `\n===END_FILE===` yields no block. |
| Extractor.MessageBlocks | workflow.py:158-165 | Blocks are taken message by message, and every block's name is a non-empty run without whitespace. |
| Extractor.MessageBlockNamesStripped | workflow.py:167 | `filename.strip()` never changes a name the pattern captured. |
| Extractor.WriteAll | workflow.py:165-177 | The extraction count grows by the number of writes that succeeded, duplicates included. A failed write neither counts nor stops the loop. |
| Extractor.WriteAllLastWins | workflow.py:165-177 | After the loop, each name holds the content of its last successful write. A name never written keeps its old content. |
| Extractor.ExtractFiles | workflow.py:157-177 | Over a whole transcript, `files_extracted` is the number of successful writes, and the workspace is the old one with those writes applied, the last one winning. |
| TestExecutor.Glob | utils/test_executor.py:21-22 | A name is among a pattern's matches exactly when it is in the listing and the pattern matches it. |
| TestExecutor.GlobCount | utils/test_executor.py:21-22 | A name is globbed as often as it is listed if the pattern matches it, and never otherwise. |
| TestExecutor.FindTestFiles | utils/test_executor.py:15-24 | A missing workspace yields no file. Otherwise a name is discovered exactly when it is listed and matches `test_*.py`, `*_test.py` or `test_suite.py`. |
| TestExecutor.DiscoveryCount | utils/test_executor.py:15-24 | Discovery holds each name once per listing of it for every pattern it matches, since the three globs are concatenated without removing duplicates. |
| TestExecutor.TestSuiteDiscoveredTwice | utils/test_executor.py:21-22 | `test_suite.py` matches both `test_*.py` and itself, so it is discovered twice. |
| TestExecutor.LastSome | utils/test_executor.py:56-65 | The last value present: none exactly when no value is present, and otherwise the value after which nothing is present. |
| TestExecutor.RanInWordsLastWins | utils/test_executor.py:59-65 | The word loop sets `tests_run` to the value after the last `Ran` token whose next word parses, and keeps the old count when there is none. |
| TestExecutor.UnittestLastWins | utils/test_executor.py:50-78 | `tests_run`, `failures` and `errors` each end as the value of the last line that offers one, or their previous value. `skipped` never changes. |
| TestExecutor.ParseUnittestOutput | utils/test_executor.py:50-78 | From all zeros, `tests_run`, `failures` and `errors` each end as the value of the last output line that offers one, or 0. `skipped` stays 0. |
| TestExecutor.KeyValueParses | utils/test_executor.py:66-77 | `int(line.split(key)[1].split(')')[0].split(',')[0])` reads back the number written right after the first `key`, whether a `)`, a `,` or the end of the line follows. |
| TestExecutor.SilentOutputParsesToZero | utils/test_executor.py:50-78 | Output in which no line offers a count parses to all zeros. |
| TestExecutor.PytestAccumulates | utils/test_executor.py:156-183 | The pytest parser adds up what every summary line reports. |
| TestExecutor.ParsePytestOutput | utils/test_executor.py:150-183 | The pytest counts are the sum of what each output line reports. |
| TestExecutor.ExecuteUnittestFile | utils/test_executor.py:26-118 | Both directions hold for each status: `passed` exactly for exit code 0, `failed` for any other exit code, and `timeout` exactly for a timeout. An exited run reports the parsed unittest counts, its output and its return code. Timeouts and exceptions report one error, no tests, return code -1 and their fixed message, and `skipped` is 0. |
| TestExecutor.ExecutePytestFile | utils/test_executor.py:120-219 | The result always names the file. If the pytest probe exits non-zero, the result is exactly the unittest path's. A probe that raises gives an `error` result with its message, one error, no tests, failures or skips, and return code -1. Otherwise an exited pytest run reports `passed` exactly for exit code 0, the summed pytest counts with `skipped`, its output and its return code; a timed-out run gives `timeout` and any other exception gives `error`, each with one error, no tests and return code -1. |
| TestExecutor.RunEachFile | utils/test_executor.py:235-256 | The loop runs every file through the unittest path in order, and its four totals are the sums of the results, with each file's passed count clamped at zero. |
| TestExecutor.ExecuteAllTests | utils/test_executor.py:221-273 | There is one result per discovered file, in discovery order, each from the unittest path. The report agrees with the reference roll-up, which has no-tests for no files, plain sums, passed tests clamped at zero, and the overall status rules. |
| TestExecutor.RollupIgnoresReturnCodes | utils/test_executor.py:241-263 | Results that agree on their counts give the same overall status and totals, whatever their return codes and statuses. |
| TestExecutor.AllTimeoutsFail | utils/test_executor.py:241-263 | When every discovered file times out, the report is `failed`, with one error per file and no tests. |
| TestExecutor.OverallStatus | utils/test_executor.py:258-263 | The roll-up never reports `error`, and reports `passed` only when some test ran and no failure or error was counted. |
| TestExecutor.OverallStatusRules | utils/test_executor.py:258-263 | Each direction holds: `failed` exactly when failures or errors were counted, `no_tests` exactly when none were and no test ran, and `passed` otherwise. |
| Workflow.ReplyText | workflow.py:125-128 | The text appended for a reply is never blank. It is the reply when that is not blank, and the fallback otherwise. |
| Workflow.Step | workflow.py:112-133 | Within 40 stages, a stage halts exactly when its agent raises, and then with that exception after `running` was reported. A stage that completes appends the fallback-adjusted reply. |
| Workflow.RetryAfterReview | workflow.py:138-141 | Inserting `coding_agent` after the review turns the default pipeline into the retry pipeline, and leaves the stages that already answered untouched. |
| Workflow.Advance | workflow.py:115-144 | One completed pass keeps the loop invariant: the transcript grows by exactly the stage's reply, and the counter, the retry and the events follow the review's `FIX_REQUIRED`. |
| Workflow.Loop | workflow.py:111-144 | The loop stops at or after its start and within the pipeline, with one appended message per completed stage, and without an exception exactly when every stage of the pipeline ran. |
| Workflow.LoopStops | workflow.py:111-144 | From any state that keeps the loop invariant, the loop stops with every stage before the stop having appended its reply in order. The pipeline is the default one or the single-retry one, and a stop before the end carries that stage's exception. |
| Workflow.RunStages | workflow.py:101-144 | The stage loop from the opening always stops in such a state. At most 8 stages run, so the runaway guard never fires. |
| Workflow.ReviewAnswered | workflow.py:111-137 | When the loop runs to the end, the message after the opening's two and the first two stages' replies is the review agent's reply to the transcript before it. |
| Workflow.RunTests | workflow.py:189-228 | A test phase that raises an `Exception` becomes the `error` report with no results and all totals zero. An interrupt gives no report. Otherwise the report holds, in order, the unittest result of each file discovered in the workspace after extraction, and is their roll-up. |
| Workflow.InitiateWorkflow | workflow.py:48-257 | A missing or blank request fails with `review_iterations` 0, and a setup fault fails with its error text. Otherwise the call succeeds exactly when the stage loop, the workspace and the test phase do not raise, and a user interrupt in the test phase is not absorbed. Each fault fails with its own error text and the counter the loop left. A success holds exactly the loop's transcript, counts the successful writes, and carries the report of the tests run on the workspace those writes produced. The full list follows the table. |
| Workflow.RunWorkflow | workflow.py:260-262 | With a fresh orchestrator and a limit of 5, `review_iterations` is 0 or 1. The call succeeds exactly when the request is not blank and neither the setup, the stage loop, the workspace nor the test phase's interrupt intervene. A success holds the loop's transcript, whose fifth message is the review agent's reply. It retries, holding 2 + 8 messages instead of 2 + 7, exactly when that reply contains `FIX_REQUIRED`, and reports one review iteration exactly then. |
| Workflow.SystemPrompt | workflow.py:77-91 | The system message is the fixed template head, then the request verbatim, then a newline and the closing indentation. |
| Workflow.MarkerOnlyInRequest | workflow.py:77-91 | Every end marker in the system message lies inside the user's request. |
| Workflow.SystemPromptMarker | workflow.py:77-91 | The system message holds `\n===END_FILE===` exactly when the request does: the template's marker line is indented. |
| Workflow.NoMarkerNoBlocks | workflow.py:158-163 | Messages without an end marker yield no block. |
| Workflow.Opening | workflow.py:77-99 | The transcript opens with a system message and an assistant message. The system message holds an end marker exactly when the request does, and the seed holds none, so the opening yields no file block unless the request carries an end marker. |
| Workflow.ErrorText | workflow.py:222-257 | The error text is never empty. It ends with the exception's message for timeouts, configuration errors and other exceptions, and holds it right after `Connection error: ` for connection errors. |
| Workflow.ErrorTextKeepsMessage | workflow.py:229-249 | Timeout, configuration and connection errors map to distinct texts that keep their message, so the error text determines the exception. |
| Dashboard.IsTokenLimitError | app.py:44-58 | `None` and the empty message are not token-limit errors. Any other message is one exactly when its lowercased text contains one of the six keywords. |
| Dashboard.TokenLimitIgnoresCase | app.py:47 | The classification is the same for a message, its lowercased form and its uppercased form. |
| Dashboard.TokensPerDayRedundant | app.py:48-58 | The keyword "tokens per day" changes nothing, because it contains "token": the other five keywords give the same answer. |
| Dashboard.StatusBanner | app.py:66-71 | The banner for a status is never the no-results one, and is the success banner exactly for `passed` and `success`. |
| Dashboard.DisplayBanner | app.py:60-71 | The no-results message shows exactly when there is no report. |
| Dashboard.BannerOfReport | app.py:67-71 | For every report the runner can produce, a banner is shown and it is the success banner exactly when the status is `passed`, so `failed`, `no_tests` and `error` all give the failure banner. |
| UniqueBsts.Catalan | workspace/main.py:26-31 | The reference recurrence C(0) = 1, C(i) = sum of C(j-1)·C(i-j) for j = 1..i, which is at least 1 for every n. |
| UniqueBsts.CatalanTable | workspace/main.py:20-31 | For n >= 1 the table's cells 0..n hold the Catalan numbers C(0)..C(n). The loop invariant keeps the rows done so far correct and the cells above still 0. |
| UniqueBsts.UniqueBstsAsWritten | workspace/main.py:9-33 | As written, n >= 1 gives C(n), and every n < 1 raises `IndexError`. |
| UniqueBsts.ZeroNotHandled | workspace/main.py:20-24 | n = 0 raises instead of giving C(0) = 1. |
| UniqueBsts.NegativeNotRejected | workspace/main.py:20-23 | A negative n raises `IndexError`, not `ValueError`. |
| UniqueBsts.UniqueBstsCorrected | workspace/main.py:9-33 | Corrected, every n >= 0 gives C(n), and a negative n raises `ValueError`. |
| UniqueBsts.CatalanValues | workspace/test_main.py:12-25 | The values the sample's tests expect: C(0..4) = 1, 1, 2, 5, 14; C(10) = 16796; C(15) = 9694845; C(20) = 6564120420. |
| UniqueBsts.CatalanCountsShapes | workspace/main.py:30-31 | The recurrence counts what it claims to. C(n) is the length of an enumeration of binary tree shapes that lists every shape with n nodes exactly once. |

The `Workflow.InitiateWorkflow` contract states:

- A missing or blank request returns the empty-request error with `review_iterations` 0, and the counter is untouched.
- A setup fault returns its error text.
- The counter rises by at most one per call, and an error result reports the counter as it stood.
- Otherwise the counter is the one the stage loop (`Workflow.RunStages`) leaves, and:
  - an exception of a stage returns that exception's error text;
  - a workspace fault after a complete loop returns its error text;
  - an interrupt during the test phase returns the interrupt's error text, because `except Exception` does not catch it;
  - in every other case the call succeeds, and only then.
- A success satisfies all of the following:
  - its transcript is exactly the stage loop's;
  - it starts with the system and seed messages;
  - it holds one non-blank assistant message per stage, with 7 or 8 stages;
  - it counts a review iteration exactly when the review reply contains `FIX_REQUIRED`;
  - it retries exactly when that count stays below the limit;
  - `files_extracted` is the number of successful writes;
  - its test report is `RunTests` on the workspace after extraction.

## Left out

- agents.py, the autogen group chat and manager (workflow.py:24-46, 63-69), and `generate_reply`: replies are a function parameter, and `get_llm_config` together with the wiring is the `setup` fault parameter.
- Logging (utils/logger.py and every `logger` call) and the Streamlit UI in app.py other than the two pieces above, because they are output only.
- The source files have CRLF line endings. Python reads the triple-quoted system prompt with `\n` newlines, and the model's prompt follows that, with the literal's twelve-space indentation.
- The progress callback is modelled as the list of events reported. A callback that itself raises is not modelled.
- Workflow.Step: its "produced empty output" branch and the `i > 40` runaway guard are kept, but the contracts show neither can fire: replies are never blank after the fallback, and at most 8 stages exist.
- Replies that are not strings (`str(reply)` of other objects) are not modelled. A reply is a text, nothing, or an exception.
- The `chat_history` defaults for missing `role`/`content` keys are not modelled, because every message the loop appends has both.
- Exceptions that are not `Exception` subclasses, other than `KeyboardInterrupt` (e.g. `SystemExit`), are not modelled.
- A `KeyboardInterrupt` is modelled where an agent replies, while setting up, while creating the workspace and during the test phase. One raised inside a single file write (workflow.py:166-177) is not: a write is modelled only as succeeding or failing, so an interrupt there would end the call with the interrupt's error text instead of skipping the file.
- Filesystem effects are abstracted:
  - a write is a map update guarded by a `canWrite` oracle; the oracle is a pure function of name and content, so a write that fails once fails every time with the same content, and a transient failure cannot be modelled;
  - `os.path.join` path semantics and missing parent directories are folded into that oracle;
  - the workspace is keyed by the captured name, so two names that reach one file (`a.py` and `./a.py`) are separate entries, and an absolute name that `os.path.join` would let escape the workspace is an ordinary entry;
  - a write that fails after truncating the file is treated as not having touched it.
- `Path.glob` order inside one pattern is the listing's order. Sub-directories are not walked, matching the non-recursive patterns.
- Subprocesses, the 30-second timeout and the environment copy are inputs: each file's `Outcome` and the pytest probe's result. The `.replace('.py', '')` module name is not modelled, since the outcome already belongs to the file.
- TestExecutor.ExecuteAllTests: always takes the unittest path, as the code does. `execute_pytest_file` is modelled on its own although nothing calls it.
- `int()` is modelled on an optional sign and ASCII decimal digits, after stripping whitespace. Underscores and non-ASCII digits are left out.
- `lower()` and `upper()` map only ASCII letters.
- Whitespace is the fixed character list of Python's `str.isspace`, which `\s` also uses in a `str` pattern. Characters added to that list by later Unicode versions are left out.
- `display_test_results` in app.py falls back to the status `unknown` for a report without one. The model's reports always carry a status.
- Dashboard.BannerOfReport: ranges over the report statuses `execute_all_tests` and the test-phase fallback produce. The status `success`, which the banner also accepts but no report carries, is stated by `Dashboard.StatusBanner`.
- The `no_tests` report's message is modelled as a tag, and so are the `Executed N test file(s)` and `Failed to execute tests` texts. The exact message strings are left out.
- UniqueBsts.UniqueBstsAsWritten: models only integer arguments. The `TypeError` for floats that the tests expect is out of scope, since Dafny's `int` has no fractional inputs.
- The wall-clock performance test in workspace/test_main.py is not modelled.

## Findings

| source | as written | input that shows it | evidently intended | confidence | as-written member | corrected member |
|---|---|---|---|---|---|---|
| workspace/main.py:20-24 | `dp = [0] * (n + 1)` has one cell for n = 0, so `dp[1] = 1` raises `IndexError` | n = 0 | `uniqueBSTs(0) == 1`, as workspace/test_main.py:12 asserts | high; not executed | UniqueBsts.ZeroNotHandled | UniqueBsts.UniqueBstsCorrected |
| workspace/main.py:20-23 | for negative n the table is empty and `dp[0] = 1` raises `IndexError` | n = -1 | a `ValueError`, as workspace/test_main.py:27-32 expects | high; not executed | UniqueBsts.NegativeNotRejected | UniqueBsts.UniqueBstsCorrected |

=== FILE: app.dfy ===
/**
 The two pure pieces of the dashboard in app.py: the classification of an error message
 as a token-limit error, and the banner chosen for a test report.
 */
module Dashboard {
  import opened Wrappers
  import opened Text
  import opened TestExecutor

  /** The keywords looked for in the lowercased message, in order. */
  const TokenLimitKeywords: seq<string> :=
    ["rate limit", "token", "tokens per day", "429", "limit reached", "rate_limit_exceeded"]

  /** Some keyword occurs in `lowered`. */
  predicate HasKeyword(lowered: string) {
    exists k :: 0 <= k < |TokenLimitKeywords| && Contains(lowered, TokenLimitKeywords[k])
  }

  /** `is_token_limit_error`: `None` and the empty message are not token-limit errors. */
  function IsTokenLimitError(msg: Option<string>): (r: bool)
    ensures msg.None? || msg == Some("") ==> !r
    ensures r <==> msg.Some? && HasKeyword(Lower(msg.value))
  {
    match msg
    case None => false
    case Some(m) =>
      if |m| == 0 then false
      else HasKeyword(Lower(m))
  }

  /** The answer does not depend on the letter case of the message. */
  lemma TokenLimitIgnoresCase(m: string)
    ensures IsTokenLimitError(Some(m)) == IsTokenLimitError(Some(Lower(m)))
    ensures IsTokenLimitError(Some(m)) == IsTokenLimitError(Some(Upper(m)))
  {
    LowerForgetsCase(m);
  }

  /** An occurrence of `a + b` is also one of `a`. */
  lemma ContainsPrefix(s: string, a: string, b: string)
    ensures Contains(s, a + b) ==> Contains(s, a)
  {
    forall i | 0 <= i <= |s| - |a + b| && OccursAt(s, a + b, i)
      ensures OccursAt(s, a, i)
    {
      assert s[i..i + |a|] == (a + b)[..|a|];
    }
  }

  /**
   "tokens per day" adds nothing to the list, since it contains "token": the answer is
   the same with the remaining five keywords.
   */
  lemma TokensPerDayRedundant(m: string)
    ensures var l := Lower(m);
            IsTokenLimitError(Some(m)) <==>
              |m| > 0 &&
              (Contains(l, "rate limit") || Contains(l, "token") || Contains(l, "429")
               || Contains(l, "limit reached") || Contains(l, "rate_limit_exceeded"))
  {
    var l := Lower(m);
    assert "tokens per day" == "token" + "s per day";
    ContainsPrefix(l, "token", "s per day");
    if |m| > 0 {
      assert TokenLimitKeywords[0] == "rate limit";
      assert TokenLimitKeywords[1] == "token";
      assert TokenLimitKeywords[3] == "429";
      assert TokenLimitKeywords[4] == "limit reached";
      assert TokenLimitKeywords[5] == "rate_limit_exceeded";
    }
  }

  // ---------------------------------------------------------------------------
  // The test-results banner
  // ---------------------------------------------------------------------------

  datatype Banner = NoResults | AllExecuted | SomeFailedOrErrored

  /** The banner for a status string: only `passed` and `success` count as success. */
  function StatusBanner(status: string): (r: Banner)
    ensures r != NoResults
    ensures r == AllExecuted <==> status == "passed" || status == "success"
  {
    if status in ["passed", "success"] then AllExecuted else SomeFailedOrErrored
  }

  /** The banner `display_test_results` shows; `None` is a missing report. */
  function DisplayBanner(results: Option<Report>): (r: Banner)
    ensures r == NoResults <==> results.None?
  {
    match results
    case None => NoResults
    case Some(report) => StatusBanner(StatusName(report.status))
  }

  /**
   For the reports the runner produces, the success banner appears exactly when every test
   passed: `no_tests` and `error` take the failure branch like `failed`.
   */
  lemma BannerOfReport(report: Report)
    ensures DisplayBanner(Some(report)) == AllExecuted <==> report.status == AllPassed
    ensures DisplayBanner(Some(report)) != NoResults
  {
    assert "failed" != "passed" && "failed" != "success";
    assert "no_tests" != "passed" && "no_tests" != "success";
    assert "error" != "passed" && "error" != "success";
  }
}

=== FILE: extractor.dfy ===
/**
 The file-block extractor that runs once the stage loop is over. Every message is scanned
 on its own, leftmost-first and without overlap, for the DOTALL pattern

     ===BEGIN_FILE:([^\s]+)===\s*\n(.*?)\n===END_FILE===

 and each block found is written into the workspace under its stripped name with its
 stripped content. A write that fails is skipped and scanning goes on; every successful
 write is counted, so a name written twice counts twice and its last content stays.
 */
module Extractor {
  import opened Wrappers
  import opened Text

  const BeginMarker: string := "===BEGIN_FILE:"
  const NameClose: string := "==="
  const EndMarker: string := "\n===END_FILE==="

  /** The two groups of one match: the file name and the raw content. */
  datatype Block = Block(name: string, content: string)

  /** Where the content group starts and where the end marker after it starts. */
  datatype Content = Content(start: nat, marker: nat)

  /** A match and the position just past it. */
  datatype Match = Match(block: Block, end: nat)

  // ---------------------------------------------------------------------------
  // What a match is
  // ---------------------------------------------------------------------------

  /**
   `s` holds, at `p`, a match of the pattern: the begin marker, a non-empty name without
   spaces, `===`, the space characters `gap` that `\s*` consumed, a newline, the content,
   and the end marker, one after the other.
   */
  predicate Shape(s: string, p: nat, name: string, gap: string, content: string) {
    var a := p + |BeginMarker|;
    var q := a + |name| + |NameClose|;
    var c := q + |gap| + 1;
    var e := c + |content|;
    && |name| > 0 && NoSpace(name) && AllSpace(gap)
    && e + |EndMarker| <= |s|
    && OccursAt(s, BeginMarker, p)
    && s[a..a + |name|] == name
    && OccursAt(s, NameClose, a + |name|)
    && s[q..q + |gap|] == gap
    && s[q + |gap|] == '\n'
    && s[c..e] == content
    && OccursAt(s, EndMarker, e)
  }

  /**
   No newline at or after `c` that `\s*` could still reach from `q` has an end marker
   after it.
   */
  predicate NoLaterNewline(s: string, q: nat, c: nat) {
    forall j :: c <= j < |s| && q <= j && s[j] == '\n' && AllSpace(s[q..j]) ==>
      forall e :: j < e <= |s| ==> !OccursAt(s, EndMarker, e)
  }

  /** The greedy `\s*` took the last newline of the space run after which the rest can still match. */
  predicate Greedy(s: string, p: nat, name: string, gap: string) {
    var q := p + |BeginMarker| + |name| + |NameClose|;
    NoLaterNewline(s, q, q + |gap| + 1)
  }

  /** The lazy content group stops at the first end marker after the content starts. */
  predicate Lazy(s: string, p: nat, name: string, gap: string, content: string) {
    var c := p + |BeginMarker| + |name| + |NameClose| + |gap| + 1;
    forall j :: c <= j < c + |content| ==> !OccursAt(s, EndMarker, j)
  }

  /** The position just past a match with these parts. */
  function MatchEnd(p: nat, name: string, gap: string, content: string): nat {
    p + |BeginMarker| + |name| + |NameClose| + |gap| + 1 + |content| + |EndMarker|
  }

  // ---------------------------------------------------------------------------
  // The matcher
  // ---------------------------------------------------------------------------

  /**
   After the name, `\s*\n` has a run of `n` space characters from `q` to work with. The
   greedy `\s*` tries the newlines of that run from the last one back; the first one after
   which an end marker still follows wins, and the lazy content runs up to the first end
   marker after it. The result is (content start, end-marker position).
   */
  function PickBody(s: string, q: nat, n: nat): (r: Option<Content>)
    requires q + n <= |s|
    decreases n
    ensures r.Some? ==> q < r.value.start <= q + n && s[r.value.start - 1] == '\n'
    ensures r.Some? ==> r.value.start <= r.value.marker && OccursAt(s, EndMarker, r.value.marker)
    ensures r.Some? ==> forall j :: r.value.start <= j < r.value.marker ==> !OccursAt(s, EndMarker, j)
    ensures r.Some? ==> forall j :: r.value.start <= j < q + n && s[j] == '\n' ==> FindFrom(s, EndMarker, j + 1).None?
    ensures r.None? ==> forall j :: q <= j < q + n && s[j] == '\n' ==> FindFrom(s, EndMarker, j + 1).None?
  {
    if n == 0 then None
    else if s[q + n - 1] == '\n' then
      match FindFrom(s, EndMarker, q + n)
      case Some(e) => Some(Content(q + n, e))
      case None => PickBody(s, q, n - 1)
    else PickBody(s, q, n - 1)
  }

  /** Where the run of non-space characters that follows the begin marker at `p` ends. */
  function NameEnd(s: string, p: nat): (q: nat)
    requires p + |BeginMarker| <= |s|
    ensures p + |BeginMarker| <= q <= |s|
    ensures forall k :: p + |BeginMarker| <= k < q ==> !IsSpace(s[k])
  {
    var a := p + |BeginMarker|;
    var m := SpanNonSpace(s[a..]);
    assert forall k :: a <= k < a + m ==> !IsSpace(s[k]) by {
      forall k | a <= k < a + m ensures !IsSpace(s[k]) {
        assert s[k] == s[a..][k - a];
      }
    }
    a + m
  }

  /**
   The text from `q` is space characters up to a newline at `c - 1`, then content from `c`
   up to the first end marker after it, at `e`.
   */
  predicate BodySpan(s: string, q: nat, c: nat, e: nat) {
    && q < c <= e
    && OccursAt(s, EndMarker, e)
    && s[c - 1] == '\n'
    && AllSpace(s[q..c - 1])
    && forall j :: c <= j < e ==> !OccursAt(s, EndMarker, j)
  }

  /**
   What `\s*\n(.*?)\n===END_FILE===` makes of the text after a name ending at `q`: the
   content start and the end-marker position. Everything between `q` and the newline
   before the content is space, and no later newline the space run reaches would do.
   */
  function Body(s: string, q: nat): (r: Option<Content>)
    requires q <= |s|
    ensures r.Some? ==> BodySpan(s, q, r.value.start, r.value.marker)
    ensures r.Some? ==> NoLaterNewline(s, q, r.value.start)
  {
    var n := SpanSpace(s[q..]);
    assert forall k :: q <= k < q + n ==> IsSpace(s[k]) by {
      forall k | q <= k < q + n ensures IsSpace(s[k]) {
        assert s[k] == s[q..][k - q];
      }
    }
    var r := PickBody(s, q, n);
    assert r.Some? ==> BodySpan(s, q, r.value.start, r.value.marker) by {
      if r.Some? {
        RunAllSpace(s, q, r.value.start - 1);
      }
    }
    assert r.Some? ==> NoLaterNewline(s, q, r.value.start) by {
      if r.Some? {
        forall j | r.value.start <= j < |s| && q <= j && s[j] == '\n' && AllSpace(s[q..j])
          ensures forall e :: j < e <= |s| ==> !OccursAt(s, EndMarker, e)
        {
          InsideSpaceRun(s, q, n, j);
        }
      }
    }
    r
  }

  /** A space at `j` with only spaces from `q` to it lies inside the space run of length `n` from `q`. */
  lemma InsideSpaceRun(s: string, q: nat, n: nat, j: nat)
    requires q <= j < |s| && n == SpanSpace(s[q..])
    requires IsSpace(s[j]) && AllSpace(s[q..j])
    ensures j < q + n
  {
    assert q + n < |s| ==> !IsSpace(s[q + n]) by {
      if q + n < |s| {
        assert s[q..][n] == s[q + n];
      }
    }
    forall k | q <= k < j ensures IsSpace(s[k]) {
      assert s[q..j][k - q] == s[k];
    }
  }

  /**
   The match starting at `p`, if any. `[^\s]+===` followed by a space character (which
   `\s*\n` needs) can only end where the run of non-space characters ends, so the name is
   that run without its last three characters, which must be `===`.
   */
  function MatchAt(s: string, p: nat): (r: Option<Match>)
    ensures r.Some? ==> p < r.value.end <= |s|
    ensures r.Some? ==> |r.value.block.name| > 0 && NoSpace(r.value.block.name)
  {
    if !OccursAt(s, BeginMarker, p) then None
    else
      var a := p + |BeginMarker|;
      var q := NameEnd(s, p);
      if q < a + |NameClose| + 1 || !OccursAt(s, NameClose, q - |NameClose|) then None
      else
        match Body(s, q)
        case None => None
        case Some(b) =>
          var m := Assemble(s, p, q, b);
          assert NoSpace(m.block.name) by {
            RunNoSpace(s, a, q - |NameClose|);
          }
          Some(m)
  }

  /** The match whose name runs from after the begin marker at `p` to the `===` ending at `q`, with content `b`. */
  function Assemble(s: string, p: nat, q: nat, b: Content): (m: Match)
    requires p + |BeginMarker| <= q - |NameClose| && q <= |s|
    requires b.start <= b.marker <= |s|
    ensures |m.block.name| == q - |NameClose| - p - |BeginMarker|
    ensures m.end == b.marker + |EndMarker|
  {
    Match(Block(s[p + |BeginMarker|..q - |NameClose|], s[b.start..b.marker]), b.marker + |EndMarker|)
  }

  /** Python's `re.findall` from position `p` on: leftmost-first, non-overlapping. */
  function ScanFrom(s: string, p: nat): (blocks: seq<Block>)
    requires p <= |s|
    decreases |s| - p
    ensures forall k :: 0 <= k < |blocks| ==> |blocks[k].name| > 0 && NoSpace(blocks[k].name)
    ensures |blocks| <= |s| - p
  {
    if p == |s| then []
    else
      match MatchAt(s, p)
      case Some(m) => [m.block] + ScanFrom(s, m.end)
      case None => ScanFrom(s, p + 1)
  }

  /**
   All blocks of one message, in order: none exactly when the pattern matches nowhere, and
   otherwise the block of the leftmost match followed by the blocks found after its end.
   */
  function FindAll(s: string): (blocks: seq<Block>)
    ensures forall k :: 0 <= k < |blocks| ==> |blocks[k].name| > 0 && NoSpace(blocks[k].name)
    ensures blocks == [] <==> forall j :: 0 <= j <= |s| ==> MatchAt(s, j).None?
    ensures forall j :: 0 <= j <= |s| && MatchAt(s, j).Some? && (forall i :: 0 <= i < j ==> MatchAt(s, i).None?) ==>
              blocks == [MatchAt(s, j).value.block] + ScanFrom(s, MatchAt(s, j).value.end)
  {
    ScanEmptyIff(s, 0);
    assert forall j :: 0 <= j <= |s| && MatchAt(s, j).Some? && (forall i :: 0 <= i < j ==> MatchAt(s, i).None?) ==>
             ScanFrom(s, 0) == [MatchAt(s, j).value.block] + ScanFrom(s, MatchAt(s, j).value.end) by {
      forall j | 0 <= j <= |s| && MatchAt(s, j).Some? && (forall i :: 0 <= i < j ==> MatchAt(s, i).None?)
        ensures ScanFrom(s, 0) == [MatchAt(s, j).value.block] + ScanFrom(s, MatchAt(s, j).value.end)
      {
        ScanFirstMatch(s, 0, j);
      }
    }
    ScanFrom(s, 0)
  }

  // ---------------------------------------------------------------------------
  // The matcher against the pattern
  // ---------------------------------------------------------------------------

  /** A run of at least `n + 1` space characters is seen as such. */
  lemma {:induction false} SpaceRunAtLeast(t: string, n: nat)
    requires n < |t|
    requires forall k :: 0 <= k <= n ==> IsSpace(t[k])
    ensures n < SpanSpace(t)
    decreases n
  {
    if n > 0 {
      SpaceRunAtLeast(t[1..], n - 1);
    }
  }

  /**
   `m` is the pattern's match at `p`: for some run `gap` of space characters before the
   content's newline, the parts are in place, the greedy `\s*` took that newline, and the
   lazy content stops at the first end marker.
   */
  ghost predicate LazyMatchAt(s: string, p: nat, m: Match) {
    exists gap ::
      && Shape(s, p, m.block.name, gap, m.block.content)
      && Lazy(s, p, m.block.name, gap, m.block.content)
      && Greedy(s, p, m.block.name, gap)
      && m.end == MatchEnd(p, m.block.name, gap, m.block.content)
  }

  /** The name group, the name run without its closing `===`, has no space character. */
  lemma NameNoSpace(s: string, p: nat)
    requires OccursAt(s, BeginMarker, p)
    requires p + |BeginMarker| + |NameClose| <= NameEnd(s, p)
    ensures NoSpace(s[p + |BeginMarker|..NameEnd(s, p) - |NameClose|])
  {
    RunNoSpace(s, p + |BeginMarker|, NameEnd(s, p) - |NameClose|);
  }

  /** A stretch of non-space characters, as a slice. */
  lemma RunNoSpace(s: string, i: nat, j: nat)
    requires i <= j <= |s|
    requires forall k :: i <= k < j ==> !IsSpace(s[k])
    ensures NoSpace(s[i..j])
  {
    forall k | 0 <= k < j - i ensures !IsSpace(s[i..j][k]) {
      assert s[i..j][k] == s[i + k];
    }
  }

  /** A stretch of space characters, as a slice. */
  lemma RunAllSpace(s: string, i: nat, j: nat)
    requires i <= j <= |s|
    requires forall k :: i <= k < j ==> IsSpace(s[k])
    ensures AllSpace(s[i..j])
  {
    forall k | 0 <= k < j - i ensures IsSpace(s[i..j][k]) {
      assert s[i..j][k] == s[i + k];
    }
  }

  /** Positions of the begin marker, the name's end, the content and the end marker, as a lazy match. */
  lemma PositionsMakeShape(s: string, p: nat, q: nat, c: nat, e: nat)
    requires OccursAt(s, BeginMarker, p)
    requires p + |BeginMarker| + |NameClose| < q <= |s|
    requires NoSpace(s[p + |BeginMarker|..q - |NameClose|])
    requires OccursAt(s, NameClose, q - |NameClose|)
    requires BodySpan(s, q, c, e) && NoLaterNewline(s, q, c)
    ensures e + |EndMarker| <= |s|
    ensures LazyMatchAt(s, p, Assemble(s, p, q, Content(c, e)))
  {
    var a := p + |BeginMarker|;
    var name, gap, content := s[a..q - |NameClose|], s[q..c - 1], s[c..e];
    assert a + |name| == q - |NameClose| && q + |gap| == c - 1 && c + |content| == e;
    assert Shape(s, p, name, gap, content);
    assert Lazy(s, p, name, gap, content);
    assert Greedy(s, p, name, gap);
  }

  /** What a successful `MatchAt` is made of: the marker, the name run ending in `===`, and the body. */
  lemma MatchAtParts(s: string, p: nat)
    requires MatchAt(s, p).Some?
    ensures OccursAt(s, BeginMarker, p)
    ensures p + |BeginMarker| + |NameClose| < NameEnd(s, p)
    ensures OccursAt(s, NameClose, NameEnd(s, p) - |NameClose|)
    ensures Body(s, NameEnd(s, p)).Some?
    ensures MatchAt(s, p).value == Assemble(s, p, NameEnd(s, p), Body(s, NameEnd(s, p)).value)
  {
  }

  /** Every match the matcher reports is a lazy match of the pattern at that position. */
  lemma MatchAtSound(s: string, p: nat)
    requires MatchAt(s, p).Some?
    ensures LazyMatchAt(s, p, MatchAt(s, p).value)
  {
    MatchAtParts(s, p);
    var q := NameEnd(s, p);
    var b := Body(s, q).value;
    NameNoSpace(s, p);
    PositionsMakeShape(s, p, q, b.start, b.marker);
  }

  /** The matcher finds a newline of the space run if any has an end marker after it. */
  lemma {:induction false} PickBodyFinds(s: string, q: nat, n: nat, k: nat, e: nat)
    requires q + n <= |s|
    requires k < n && s[q + k] == '\n'
    requires q + k + 1 <= e && OccursAt(s, EndMarker, e)
    ensures PickBody(s, q, n).Some?
    decreases n
  {
    if k == n - 1 {
      assert FindFrom(s, EndMarker, q + n).Some?;
    } else if !(s[q + n - 1] == '\n' && FindFrom(s, EndMarker, q + n).Some?) {
      PickBodyFinds(s, q, n - 1, k, e);
    }
  }

  /** Wherever the pattern matches, the matcher reports a match. */
  lemma MatchAtComplete(s: string, p: nat, name: string, gap: string, content: string)
    requires Shape(s, p, name, gap, content)
    ensures MatchAt(s, p).Some?
  {
    ShapeParts(s, p, name, gap, content);
    MatchAtFromParts(s, p, p + |BeginMarker| + |name| + |NameClose|);
  }

  /** A match has the parts `MatchAt` looks for: the opening marker, the name run and a body. */
  lemma ShapeParts(s: string, p: nat, name: string, gap: string, content: string)
    requires Shape(s, p, name, gap, content)
    ensures var q := p + |BeginMarker| + |name| + |NameClose|;
            && OccursAt(s, BeginMarker, p)
            && q == NameEnd(s, p) && p + |BeginMarker| + |NameClose| < q
            && OccursAt(s, NameClose, q - |NameClose|)
            && Body(s, q).Some?
  {
    ShapeNameRun(s, p, name, gap, content);
    ShapeBody(s, p, name, gap, content);
  }

  /** In a match, the name run is the name and its closing `===`. */
  lemma ShapeNameRun(s: string, p: nat, name: string, gap: string, content: string)
    requires Shape(s, p, name, gap, content)
    ensures NameEnd(s, p) == p + |BeginMarker| + |name| + |NameClose|
    ensures OccursAt(s, NameClose, NameEnd(s, p) - |NameClose|)
  {
    var a := p + |BeginMarker|;
    var q := a + |name| + |NameClose|;
    forall k | a <= k < q ensures !IsSpace(s[k]) {
      if k < a + |name| {
        assert s[k] == s[a..a + |name|][k - a] == name[k - a];
      } else {
        assert s[k] == s[a + |name|..q][k - a - |name|] == NameClose[k - a - |name|] == '=';
      }
    }
    if |gap| > 0 {
      assert s[q] == s[q..q + |gap|][0] == gap[0];
    }
    NameEndAt(s, p, q);
    assert NameEnd(s, p) - |NameClose| == a + |name|;
  }

  /** In a match, a body follows the name run. */
  lemma ShapeBody(s: string, p: nat, name: string, gap: string, content: string)
    requires Shape(s, p, name, gap, content)
    ensures Body(s, p + |BeginMarker| + |name| + |NameClose|).Some?
  {
    var q := p + |BeginMarker| + |name| + |NameClose|;
    BodyAt(s, q, gap, q + |gap| + 1 + |content|);
  }

  /** The name run ends at the first space character after the begin marker. */
  lemma NameEndAt(s: string, p: nat, q: nat)
    requires p + |BeginMarker| <= q < |s| && IsSpace(s[q])
    requires forall k :: p + |BeginMarker| <= k < q ==> !IsSpace(s[k])
    ensures NameEnd(s, p) == q
  {
    var a := p + |BeginMarker|;
    forall k | 0 <= k < q - a ensures !IsSpace(s[a..][k]) {
      assert s[a..][k] == s[a + k];
    }
    SpanNonSpaceIs(s[a..], q - a);
  }

  /** Space characters from `q` up to a newline, with an end marker later on, give a body. */
  lemma BodyAt(s: string, q: nat, gap: string, e: nat)
    requires q + |gap| < |s| && s[q..q + |gap|] == gap && AllSpace(gap) && s[q + |gap|] == '\n'
    requires q + |gap| + 1 <= e && OccursAt(s, EndMarker, e)
    ensures Body(s, q).Some?
  {
    var g := |gap|;
    forall k | 0 <= k <= g ensures IsSpace(s[q..][k]) {
      if k < g {
        assert s[q..][k] == gap[k];
      }
    }
    SpaceRunAtLeast(s[q..], g);
    PickBodyFinds(s, q, SpanSpace(s[q..]), g, e);
  }

  /** The matcher succeeds once the begin marker, the name run ending in `===` and a body are there. */
  lemma MatchAtFromParts(s: string, p: nat, q: nat)
    requires OccursAt(s, BeginMarker, p)
    requires q == NameEnd(s, p) && p + |BeginMarker| + |NameClose| < q
    requires OccursAt(s, NameClose, q - |NameClose|)
    requires Body(s, q).Some?
    ensures MatchAt(s, p).Some?
  {
  }

  /** Two matches at one position have the same name: it is the non-space run up to its closing `===`. */
  lemma SameName(s: string, p: nat, name: string, gap: string, content: string,
                 name': string, gap': string, content': string)
    requires Shape(s, p, name, gap, content) && Shape(s, p, name', gap', content')
    ensures name == name'
  {
    ShapeNameRun(s, p, name, gap, content);
    ShapeNameRun(s, p, name', gap', content');
  }

  /** With the name fixed, the greedy `\s*` leaves one choice of newline. */
  lemma SameGap(s: string, p: nat, name: string, gap: string, content: string, gap': string, content': string)
    requires Shape(s, p, name, gap, content) && Shape(s, p, name, gap', content')
    requires Greedy(s, p, name, gap) && Greedy(s, p, name, gap')
    ensures gap == gap'
  {
    var q := p + |BeginMarker| + |name| + |NameClose|;
    if |gap| < |gap'| {
      LaterNewlineBlocks(s, p, name, gap, gap', content');
    } else if |gap'| < |gap| {
      LaterNewlineBlocks(s, p, name, gap', gap, content);
    }
    assert gap == s[q..q + |gap|];
  }

  /** A match whose newline comes later in the space run shows that an earlier newline was not the greedy choice. */
  lemma LaterNewlineBlocks(s: string, p: nat, name: string, gap: string, gap': string, content': string)
    requires Shape(s, p, name, gap', content')
    requires |gap| < |gap'|
    ensures !Greedy(s, p, name, gap)
  {
    var q := p + |BeginMarker| + |name| + |NameClose|;
    var j := q + |gap'|;
    assert s[q..j] == gap';
    assert OccursAt(s, EndMarker, j + 1 + |content'|);
  }

  /** With the name and the newline fixed, the lazy content leaves one choice of end marker. */
  lemma SameContent(s: string, p: nat, name: string, gap: string, content: string, content': string)
    requires Shape(s, p, name, gap, content) && Shape(s, p, name, gap, content')
    requires Lazy(s, p, name, gap, content) && Lazy(s, p, name, gap, content')
    ensures content == content'
  {
    var c := p + |BeginMarker| + |name| + |NameClose| + |gap| + 1;
    assert OccursAt(s, EndMarker, c + |content|) && OccursAt(s, EndMarker, c + |content'|);
    assert content == s[c..c + |content|] && content' == s[c..c + |content'|];
  }

  /** The pattern has at most one match at a position. */
  lemma LazyMatchUnique(s: string, p: nat, m: Match, m': Match)
    requires LazyMatchAt(s, p, m) && LazyMatchAt(s, p, m')
    ensures m == m'
  {
    var name, content, name', content' := m.block.name, m.block.content, m'.block.name, m'.block.content;
    var gap :| Shape(s, p, name, gap, content) && Lazy(s, p, name, gap, content)
               && Greedy(s, p, name, gap) && m.end == MatchEnd(p, name, gap, content);
    var gap' :| Shape(s, p, name', gap', content') && Lazy(s, p, name', gap', content')
                && Greedy(s, p, name', gap') && m'.end == MatchEnd(p, name', gap', content');
    SameName(s, p, name, gap, content, name', gap', content');
    SameGap(s, p, name, gap, content, gap', content');
    SameContent(s, p, name, gap, content, content');
  }

  /** The matcher reports exactly the pattern's match at a position, and nothing where there is none. */
  lemma MatchAtIsTheMatch(s: string, p: nat, m: Match)
    ensures LazyMatchAt(s, p, m) <==> MatchAt(s, p) == Some(m)
  {
    if LazyMatchAt(s, p, m) {
      var gap :| Shape(s, p, m.block.name, gap, m.block.content);
      MatchAtComplete(s, p, m.block.name, gap, m.block.content);
      MatchAtSound(s, p);
      LazyMatchUnique(s, p, MatchAt(s, p).value, m);
    }
    if MatchAt(s, p) == Some(m) {
      MatchAtSound(s, p);
    }
  }

  /** `findall` comes back empty exactly when the pattern matches at no position. */
  lemma {:induction false} ScanEmptyIff(s: string, p: nat)
    requires p <= |s|
    ensures ScanFrom(s, p) == [] <==> forall j :: p <= j <= |s| ==> MatchAt(s, j).None?
    decreases |s| - p
  {
    if p < |s| {
      match MatchAt(s, p)
      case Some(m) =>
        assert ScanFrom(s, p) == [m.block] + ScanFrom(s, m.end);
      case None =>
        assert ScanFrom(s, p) == ScanFrom(s, p + 1);
        ScanEmptyIff(s, p + 1);
        if ScanFrom(s, p + 1) == [] {
          forall j | p <= j <= |s| ensures MatchAt(s, j).None? {
            if j > p {
              assert p + 1 <= j <= |s|;
            }
          }
        }
    }
  }

  /**
   The scan from `p` skips the positions without a match, takes the block of the leftmost
   match, and resumes at its end: findall's matches are leftmost-first and never overlap.
   */
  lemma {:induction false} ScanFirstMatch(s: string, p: nat, j: nat)
    requires p <= j <= |s| && MatchAt(s, j).Some?
    requires forall i :: p <= i < j ==> MatchAt(s, i).None?
    ensures ScanFrom(s, p) == [MatchAt(s, j).value.block] + ScanFrom(s, MatchAt(s, j).value.end)
    decreases j - p
  {
    if p < j {
      assert MatchAt(s, p).None?;
      assert ScanFrom(s, p) == ScanFrom(s, p + 1);
      ScanFirstMatch(s, p + 1, j);
    }
  }

  /** A message in which the pattern matches somewhere yields at least one block. */
  lemma ShapeYieldsBlock(s: string, p: nat, name: string, gap: string, content: string)
    requires Shape(s, p, name, gap, content)
    ensures FindAll(s) != []
  {
    MatchAtComplete(s, p, name, gap, content);
    ScanEmptyIff(s, 0);
  }

  /** Every match ends with an end marker. */
  lemma MatchNeedsEndMarker(s: string, p: nat)
    ensures MatchAt(s, p).Some? ==> Contains(s, EndMarker)
  {
    if MatchAt(s, p).Some? {
      MatchAtParts(s, p);
      var e := Body(s, NameEnd(s, p)).value.marker;
      assert OccursAt(s, EndMarker, e);
    }
  }

  /** A message yields a block only if it holds an end marker: without one there is nothing to extract. */
  lemma BlocksNeedEndMarker(s: string)
    ensures FindAll(s) != [] ==> Contains(s, EndMarker)
  {
    ScanEmptyIff(s, 0);
    forall j | 0 <= j <= |s| ensures MatchAt(s, j).Some? ==> Contains(s, EndMarker) {
      MatchNeedsEndMarker(s, j);
    }
  }

  // ---------------------------------------------------------------------------
  // Writing the blocks
  // ---------------------------------------------------------------------------

  /** The workspace as a map from file name to content, and the number of writes that succeeded. */
  datatype Extraction = Extraction(workspace: map<string, string>, written: nat)

  /** Whether writing `content` under `name` succeeds; failures are not visible otherwise. */
  type Writer = (string, string) -> bool

  /** Every block of every message, message by message. */
  function MessageBlocks(messages: seq<string>): (blocks: seq<Block>)
    ensures forall k :: 0 <= k < |blocks| ==> |blocks[k].name| > 0 && NoSpace(blocks[k].name)
  {
    if |messages| == 0 then [] else FindAll(messages[0]) + MessageBlocks(messages[1..])
  }

  /** Each block's name and content, stripped, as the extraction loop writes them. */
  function Stripped(blocks: seq<Block>): (pairs: seq<(string, string)>)
    ensures |pairs| == |blocks|
    ensures forall k :: 0 <= k < |blocks| ==> pairs[k] == (Strip(blocks[k].name), Strip(blocks[k].content))
  {
    seq(|blocks|, k requires 0 <= k < |blocks| => (Strip(blocks[k].name), Strip(blocks[k].content)))
  }

  /**
   The extraction loop: one write attempt per block, in order. A failed write neither
   counts nor stops the loop, so the count grows by exactly the writes that succeed.
   */
  function WriteAll(x: Extraction, pairs: seq<(string, string)>, canWrite: Writer): (r: Extraction)
    decreases |pairs|
    ensures r.written == x.written + |Writes(pairs, canWrite)|
  {
    if |pairs| == 0 then x
    else
      var (name, content) := pairs[0];
      var next := if canWrite(name, content)
                  then Extraction(x.workspace[name := content], x.written + 1)
                  else x;
      WriteAll(next, pairs[1..], canWrite)
  }

  /**
   Extraction over a whole transcript, starting from the workspace as it was: the count is
   the number of successful writes, and the workspace is the old one with those writes
   applied in order, the last one to a name winning.
   */
  function ExtractFiles(workspace: map<string, string>, messages: seq<string>, canWrite: Writer): (r: Extraction)
    ensures var ws := Writes(Stripped(MessageBlocks(messages)), canWrite);
            r.written == |ws| && Applied(workspace, ws, r.workspace)
  {
    WriteAllLastWins(Extraction(workspace, 0), Stripped(MessageBlocks(messages)), canWrite);
    WriteAll(Extraction(workspace, 0), Stripped(MessageBlocks(messages)), canWrite)
  }

  /** The writes that succeed, in order. */
  function Writes(pairs: seq<(string, string)>, canWrite: Writer): seq<(string, string)> {
    if |pairs| == 0 then []
    else (if canWrite(pairs[0].0, pairs[0].1) then [pairs[0]] else []) + Writes(pairs[1..], canWrite)
  }

  /** The content of the last write to `name`, if there was one. */
  function LastWrite(ws: seq<(string, string)>, name: string): Option<string> {
    if |ws| == 0 then None
    else if ws[|ws| - 1].0 == name then Some(ws[|ws| - 1].1)
    else LastWrite(ws[..|ws| - 1], name)
  }

  lemma {:induction false} LastWriteAppend(a: seq<(string, string)>, b: seq<(string, string)>, name: string)
    ensures LastWrite(a + b, name) == if LastWrite(b, name).Some? then LastWrite(b, name) else LastWrite(a, name)
    decreases |b|
  {
    if |b| == 0 {
      assert a + b == a;
    } else {
      assert (a + b)[..|a + b| - 1] == a + b[..|b| - 1];
      LastWriteAppend(a, b[..|b| - 1], name);
    }
  }

  /** `after` is `before` with the writes `ws` applied: the last write to a name wins. */
  ghost predicate Applied(before: map<string, string>, ws: seq<(string, string)>, after: map<string, string>) {
    forall name ::
      && (name in after <==> name in before || LastWrite(ws, name).Some?)
      && (name in after ==>
            after[name] == (if LastWrite(ws, name).Some? then LastWrite(ws, name).value else before[name]))
  }

  /** Applying one write and then `rest` is applying `[w] + rest`. */
  lemma AppliedStep(before: map<string, string>, w: (string, string), rest: seq<(string, string)>, after: map<string, string>)
    requires Applied(before[w.0 := w.1], rest, after)
    ensures Applied(before, [w] + rest, after)
  {
    forall k: string
      ensures LastWrite([w] + rest, k)
              == if LastWrite(rest, k).Some? then LastWrite(rest, k)
                 else if w.0 == k then Some(w.1) else None
    {
      LastWriteAppend([w], rest, k);
      assert [w][..0] == [];
    }
  }

  /** The extraction loop leaves, under each name, the content of the last successful write to it. */
  lemma {:induction false} WriteAllLastWins(x: Extraction, pairs: seq<(string, string)>, canWrite: Writer)
    ensures Applied(x.workspace, Writes(pairs, canWrite), WriteAll(x, pairs, canWrite).workspace)
    decreases |pairs|
  {
    if |pairs| > 0 {
      var (name, content) := pairs[0];
      var rest := Writes(pairs[1..], canWrite);
      var next := if canWrite(name, content)
                  then Extraction(x.workspace[name := content], x.written + 1)
                  else x;
      WriteAllLastWins(next, pairs[1..], canWrite);
      var after := WriteAll(next, pairs[1..], canWrite).workspace;
      if canWrite(name, content) {
        AppliedStep(x.workspace, (name, content), rest, after);
      } else {
        assert Writes(pairs, canWrite) == rest;
      }
    }
  }

  /** Stripping a file name is a no-op: the name group can hold no space character. */
  lemma MessageBlockNamesStripped(messages: seq<string>)
    ensures forall b :: b in MessageBlocks(messages) ==> |b.name| > 0 && Strip(b.name) == b.name
  {
    forall b | b in MessageBlocks(messages) ensures |b.name| > 0 && Strip(b.name) == b.name {
      StripNoSpace(b.name);
    }
  }
}

=== FILE: test_executor.dfy ===
/**
 The test runner of utils/test_executor.py: discovery of test files in the workspace, the
 best-effort parsing of a runner's combined output, the classification of one subprocess
 outcome, and the roll-up over all discovered files. Subprocesses are not run here: their
 outcomes are inputs.
 */
module TestExecutor {
  import opened Wrappers
  import opened Text

  // ---------------------------------------------------------------------------
  // Discovery
  // ---------------------------------------------------------------------------

  /** The three glob patterns, tried in this order. */
  datatype Pattern = TestPrefix | TestSuffix | TestSuite

  const Patterns: seq<Pattern> := [TestPrefix, TestSuffix, TestSuite]

  predicate HasPrefix(s: string, p: string) {
    |p| <= |s| && s[..|p|] == p
  }

  predicate HasSuffix(s: string, p: string) {
    |p| <= |s| && s[|s| - |p|..] == p
  }

  /** `fnmatch` of a top-level name against `test_*.py`, `*_test.py` and `test_suite.py`. */
  predicate Matches(pattern: Pattern, name: string) {
    match pattern
    case TestPrefix => |name| >= 8 && HasPrefix(name, "test_") && HasSuffix(name, ".py")
    case TestSuffix => HasSuffix(name, "_test.py")
    case TestSuite => name == "test_suite.py"
  }

  /** The names of `listing` that a pattern matches, in listing order. */
  function Glob(listing: seq<string>, pattern: Pattern): (r: seq<string>)
    ensures forall n :: n in r <==> n in listing && Matches(pattern, n)
  {
    if |listing| == 0 then []
    else (if Matches(pattern, listing[0]) then [listing[0]] else []) + Glob(listing[1..], pattern)
  }

  /**
   `find_test_files`: the matches of each pattern in turn, concatenated without removing
   duplicates. `None` is a workspace directory that does not exist.
   */
  function FindTestFiles(listing: Option<seq<string>>): (files: seq<string>)
    ensures listing.None? ==> files == []
    ensures listing.Some? ==> forall n :: n in files <==>
              n in listing.value && (Matches(TestPrefix, n) || Matches(TestSuffix, n) || Matches(TestSuite, n))
  {
    match listing
    case None => []
    case Some(names) => Glob(names, TestPrefix) + Glob(names, TestSuffix) + Glob(names, TestSuite)
  }

  function PatternBit(pattern: Pattern, name: string): nat {
    if Matches(pattern, name) then 1 else 0
  }

  /** How many of the three patterns a name matches. */
  function PatternsMatched(name: string): nat {
    PatternBit(TestPrefix, name) + PatternBit(TestSuffix, name) + PatternBit(TestSuite, name)
  }

  lemma {:induction false} GlobCount(listing: seq<string>, pattern: Pattern, name: string)
    ensures multiset(Glob(listing, pattern))[name] == if Matches(pattern, name) then multiset(listing)[name] else 0
    decreases |listing|
  {
    if |listing| > 0 {
      var head := if Matches(pattern, listing[0]) then [listing[0]] else [];
      GlobCount(listing[1..], pattern, name);
      assert multiset(listing) == multiset([listing[0]]) + multiset(listing[1..]) by {
        assert listing == [listing[0]] + listing[1..];
      }
      assert multiset(Glob(listing, pattern)) == multiset(head) + multiset(Glob(listing[1..], pattern));
    }
  }

  /** A name is discovered once for every pattern it matches, times the number of times it is listed. */
  lemma DiscoveryCount(names: seq<string>, name: string)
    ensures multiset(FindTestFiles(Some(names)))[name] == multiset(names)[name] * PatternsMatched(name)
  {
    var a, b, c := Glob(names, TestPrefix), Glob(names, TestSuffix), Glob(names, TestSuite);
    var m := multiset(names)[name];
    var x, y, z := PatternBit(TestPrefix, name), PatternBit(TestSuffix, name), PatternBit(TestSuite, name);
    GlobCount(names, TestPrefix, name);
    GlobCount(names, TestSuffix, name);
    GlobCount(names, TestSuite, name);
    CopiesIfMatched(m, Matches(TestPrefix, name));
    CopiesIfMatched(m, Matches(TestSuffix, name));
    CopiesIfMatched(m, Matches(TestSuite, name));
    calc {
      multiset(FindTestFiles(Some(names)))[name];
      multiset(a + b + c)[name];
      { assert multiset(a + b + c) == multiset(a) + multiset(b) + multiset(c); }
      multiset(a)[name] + multiset(b)[name] + multiset(c)[name];
      m * x + m * y + m * z;
      { CopiesOfThreeGlobs(m, x, y, z); }
      m * (x + y + z);
    }
  }

  /** A name listed `m` times is globbed `m` times when the pattern matches, and 0 times otherwise. */
  lemma CopiesIfMatched(m: int, matched: bool)
    ensures (if matched then m else 0) == m * (if matched then 1 else 0)
  {
  }

  /** The copies the three globs contribute add up to `m` times the number of patterns matched. */
  lemma CopiesOfThreeGlobs(m: int, x: int, y: int, z: int)
    ensures m * x + m * y + m * z == m * (x + y + z)
  {
  }

  /** `test_suite.py` matches both `test_*.py` and itself, so it is discovered twice. */
  lemma TestSuiteDiscoveredTwice(names: seq<string>)
    requires multiset(names)["test_suite.py"] == 1
    ensures multiset(FindTestFiles(Some(names)))["test_suite.py"] == 2
  {
    var n := "test_suite.py";
    assert n[..5] == "test_";
    assert n[|n| - 3..] == ".py";
    assert n[|n| - 8..] != "_test.py" by {
      assert n[|n| - 8..][0] == 's';
    }
    DiscoveryCount(names, n);
  }

  // ---------------------------------------------------------------------------
  // Parsing runner output
  // ---------------------------------------------------------------------------

  /** The counts read from one file's output. */
  datatype Counts = Counts(testsRun: int, failures: int, errors: int, skipped: int)

  /** The last value present, if any. */
  function LastSome(xs: seq<Option<int>>): (r: Option<int>)
    ensures r.None? <==> forall k :: 0 <= k < |xs| ==> xs[k].None?
    ensures forall k :: 0 <= k < |xs| && xs[k].Some? && (forall j :: k < j < |xs| ==> xs[j].None?) ==> r == xs[k]
  {
    if |xs| == 0 then None
    else if xs[|xs| - 1].Some? then xs[|xs| - 1]
    else
      var prefix := xs[..|xs| - 1];
      assert forall k :: 0 <= k < |xs| - 1 ==> prefix[k] == xs[k];
      LastSome(prefix)
  }

  /** `int(parts[i + 1])` when `parts[i]` is exactly `Ran`. */
  function RanAt(parts: seq<string>, i: nat): Option<int>
    requires i < |parts|
  {
    if parts[i] == "Ran" && i + 1 < |parts| then ParseInt(parts[i + 1]) else None
  }

  /** The inner loop over a line's words: each `Ran <int>` overwrites the count. */
  function RanInWords(count: int, parts: seq<string>, i: nat): int
    requires i <= |parts|
    decreases |parts| - i
  {
    if i == |parts| then count
    else RanInWords(RanAt(parts, i).GetOr(count), parts, i + 1)
  }

  /** The value `int()` reads from the text after `key` up to the first `)` and then the first `,`. */
  function KeyValue(line: string, key: string): Option<int>
    requires |key| > 0 && Contains(line, key)
  {
    ParseInt(Before(Before(SecondField(line, key), ")"), ","))
  }

  /** One line of the unittest parsing loop. */
  function UnittestLine(c: Counts, line: string): Counts {
    var testsRun :=
      if Contains(line, "Ran") && Contains(line, "test") then RanInWords(c.testsRun, Words(line), 0)
      else c.testsRun;
    var failures :=
      if Contains(line, "FAILED") && Contains(line, "failures=") then KeyValue(line, "failures=").GetOr(c.failures)
      else c.failures;
    var errors :=
      if Contains(line, "FAILED") && Contains(line, "errors=") then KeyValue(line, "errors=").GetOr(c.errors)
      else c.errors;
    Counts(testsRun, failures, errors, c.skipped)
  }

  function UnittestLines(c: Counts, lines: seq<string>): Counts
    decreases |lines|
  {
    if |lines| == 0 then c else UnittestLines(UnittestLine(c, lines[0]), lines[1..])
  }

  /**
   The counts `execute_unittest_file` reads from the output, starting from all zeros: each
   of `tests_run`, `failures` and `errors` is what the last line offering one offers, and
   `skipped` stays 0.
   */
  function ParseUnittestOutput(output: string): (r: Counts)
    ensures var lines := Split(output, '\n');
            && r.testsRun == LastSome(Offers(lines, RanValue)).GetOr(0)
            && r.failures == LastSome(Offers(lines, FailuresValue)).GetOr(0)
            && r.errors == LastSome(Offers(lines, ErrorsValue)).GetOr(0)
            && r.skipped == 0
  {
    UnittestLastWins(Counts(0, 0, 0, 0), Split(output, '\n'));
    UnittestLines(Counts(0, 0, 0, 0), Split(output, '\n'))
  }

  /** What a line offers for `tests_run`: the last `Ran <int>` of a line holding both `Ran` and `test`. */
  function RanValue(line: string): Option<int> {
    if Contains(line, "Ran") && Contains(line, "test") then
      var parts := Words(line);
      LastSome(RanOffers(parts, 0))
    else None
  }

  /** What the words from `i` on offer for `tests_run`, word by word. */
  function RanOffers(parts: seq<string>, i: nat): (xs: seq<Option<int>>)
    requires i <= |parts|
    decreases |parts| - i
    ensures |xs| == |parts| - i
  {
    if i == |parts| then [] else [RanAt(parts, i)] + RanOffers(parts, i + 1)
  }

  /** What a line offers for `failures`. */
  function FailuresValue(line: string): Option<int> {
    if Contains(line, "FAILED") && Contains(line, "failures=") then KeyValue(line, "failures=") else None
  }

  /** What a line offers for `errors`. */
  function ErrorsValue(line: string): Option<int> {
    if Contains(line, "FAILED") && Contains(line, "errors=") then KeyValue(line, "errors=") else None
  }

  lemma {:induction false} LastSomeCons(x: Option<int>, xs: seq<Option<int>>)
    ensures LastSome([x] + xs) == if LastSome(xs).Some? then LastSome(xs) else x
    decreases |xs|
  {
    var ys := [x] + xs;
    if |xs| == 0 {
      assert ys == [x];
    } else if xs[|xs| - 1].Some? {
      assert ys[|ys| - 1] == xs[|xs| - 1];
    } else {
      assert ys[|ys| - 1] == xs[|xs| - 1];
      assert ys[..|ys| - 1] == [x] + xs[..|xs| - 1];
      LastSomeCons(x, xs[..|xs| - 1]);
    }
  }

  /** The word loop keeps the last parseable `Ran <int>` pair of the line. */
  lemma {:induction false} RanInWordsLastWins(count: int, parts: seq<string>, i: nat)
    requires i <= |parts|
    ensures RanInWords(count, parts, i) == LastSome(RanOffers(parts, i)).GetOr(count)
    decreases |parts| - i
  {
    if i < |parts| {
      var x := RanAt(parts, i);
      assert RanOffers(parts, i) == [x] + RanOffers(parts, i + 1);
      assert RanInWords(count, parts, i) == RanInWords(x.GetOr(count), parts, i + 1);
      RanInWordsLastWins(x.GetOr(count), parts, i + 1);
      LastSomeStep(x, RanOffers(parts, i + 1), count);
    }
  }

  function Offers(lines: seq<string>, f: string -> Option<int>): seq<Option<int>> {
    seq(|lines|, k requires 0 <= k < |lines| => f(lines[k]))
  }

  lemma OffersCons(lines: seq<string>, f: string -> Option<int>)
    requires |lines| > 0
    ensures Offers(lines, f) == [f(lines[0])] + Offers(lines[1..], f)
  {
  }

  /** Prepending a value changes the last value only when nothing later is present. */
  lemma LastSomeStep(x: Option<int>, xs: seq<Option<int>>, d: int)
    ensures LastSome([x] + xs).GetOr(d) == LastSome(xs).GetOr(x.GetOr(d))
  {
    LastSomeCons(x, xs);
  }

  /** A line changes `tests_run` to the value it offers, if any. */
  lemma RanStep(c: Counts, line: string)
    ensures UnittestLine(c, line).testsRun == RanValue(line).GetOr(c.testsRun)
  {
    if Contains(line, "Ran") && Contains(line, "test") {
      var parts := Words(line);
      RanInWordsLastWins(c.testsRun, parts, 0);
    }
  }

  /**
   Every count the unittest parser reports is the value of the last line that offers one,
   or the starting value when no line does: later lines overwrite earlier ones.
   */
  lemma {:induction false} UnittestLastWins(c: Counts, lines: seq<string>)
    ensures var r := UnittestLines(c, lines);
            && r.testsRun == LastSome(Offers(lines, RanValue)).GetOr(c.testsRun)
            && r.failures == LastSome(Offers(lines, FailuresValue)).GetOr(c.failures)
            && r.errors == LastSome(Offers(lines, ErrorsValue)).GetOr(c.errors)
            && r.skipped == c.skipped
    decreases |lines|
  {
    if |lines| > 0 {
      var line, rest := lines[0], lines[1..];
      var next := UnittestLine(c, line);
      UnittestLastWins(next, rest);
      RanStep(c, line);
      OffersCons(lines, RanValue);
      OffersCons(lines, FailuresValue);
      OffersCons(lines, ErrorsValue);
      LastSomeStep(RanValue(line), Offers(rest, RanValue), c.testsRun);
      LastSomeStep(FailuresValue(line), Offers(rest, FailuresValue), c.failures);
      LastSomeStep(ErrorsValue(line), Offers(rest, ErrorsValue), c.errors);
    }
  }

  /** Output without any line that offers a count parses to all zeros. */
  lemma SilentOutputParsesToZero(output: string)
    requires forall line :: line in Split(output, '\n') ==>
               RanValue(line).None? && FailuresValue(line).None? && ErrorsValue(line).None?
    ensures ParseUnittestOutput(output) == Counts(0, 0, 0, 0)
  {
    var lines := Split(output, '\n');
    UnittestLastWins(Counts(0, 0, 0, 0), lines);
    assert forall k :: 0 <= k < |lines| ==> lines[k] in lines;
  }

  /** No occurrence of a pattern starting with a non-digit begins inside a run of digits. */
  lemma DigitsHideKey(d: string, rest: string, key: string)
    requires IsDigits(d) && |key| > 0 && !IsDigit(key[0])
    ensures forall j :: 0 <= j < |d| ==> !OccursAt(d + rest, key, j)
  {
    var s := d + rest;
    forall j | 0 <= j < |d| ensures !OccursAt(s, key, j) {
      assert s[j] == d[j];
      assert IsDigit(d[j]);
      if j + |key| <= |s| {
        assert s[j..j + |key|][0] == s[j];
      }
    }
  }

  /** Python's `(d + post).split(c)[0]` keeps the digits, and is exactly them when `post` starts with `c`. */
  lemma BeforeDigits(d: string, post: string, c: char)
    requires IsDigits(d) && !IsDigit(c)
    ensures var t := Before(d + post, [c]); |d| <= |t| && t[..|d|] == d
    ensures |post| > 0 && post[0] == c ==> Before(d + post, [c]) == d
  {
    var s := d + post;
    DigitsHideKey(d, post, [c]);
    assert s[..|d|] == d;
    if |post| > 0 && post[0] == c {
      assert s[|d|..|d| + 1] == [c];
      assert OccursAt(s, [c], |d|);
    }
  }

  /** The key cannot start inside the digits, and `post` holds none, so `d + post` holds none. */
  lemma DigitsThenNoKey(d: string, post: string, key: string)
    requires IsDigits(d) && |key| > 0 && !IsDigit(key[0]) && !Contains(post, key)
    ensures !Contains(d + post, key)
  {
    var rest := d + post;
    DigitsHideKey(d, post, key);
    forall j | |d| <= j ensures !OccursAt(rest, key, j) {
      assert !OccursAt(post, key, j - |d|);
      if j + |key| <= |rest| {
        assert rest[j..j + |key|] == post[j - |d|..j - |d| + |key|];
      }
    }
  }

  /** `line.split(key)[1]` is everything after the first `key` when no second one follows. */
  lemma SecondFieldIsRest(pre: string, key: string, rest: string)
    requires |key| > 0 && !Contains(rest, key)
    requires forall j :: 0 <= j < |pre| ==> !OccursAt(pre + key + rest, key, j)
    ensures Contains(pre + key + rest, key) && SecondField(pre + key + rest, key) == rest
  {
    var line := pre + key + rest;
    assert line[|pre|..|pre| + |key|] == key;
    assert OccursAt(line, key, |pre|);
    assert FindFrom(line, key, 0) == Some(|pre|);
    FindIffContains(line, key);
    assert line[|pre| + |key|..] == rest;
  }

  /** `(d + post).split(')')[0].split(',')[0]` is the digits when `post` starts with `)` or `,` or is empty. */
  lemma DigitsField(d: string, post: string)
    requires IsDigits(d)
    requires |post| == 0 || post[0] == ')' || post[0] == ','
    ensures Before(Before(d + post, ")"), ",") == d
  {
    BeforeDigits(d, post, ')');
    var t := Before(d + post, ")");
    assert t == d + t[|d|..];
    if |t| > |d| {
      assert t[|d|] == (d + post)[|d|] == post[0];
    }
    BeforeDigits(d, t[|d|..], ',');
  }

  /**
   `int(line.split(key)[1].split(')')[0].split(',')[0])` reads back the number written
   just after the first `key`, whatever follows a closing `)` or `,`.
   */
  lemma KeyValueParses(pre: string, key: string, n: nat, post: string)
    requires |key| > 0 && !IsDigit(key[0])
    requires forall j :: 0 <= j < |pre| ==> !OccursAt(pre + key + Decimal(n) + post, key, j)
    requires !Contains(post, key)
    requires |post| == 0 || post[0] == ')' || post[0] == ','
    ensures var line := pre + key + Decimal(n) + post;
            Contains(line, key) && KeyValue(line, key) == Some(n as int)
  {
    var d := Decimal(n);
    assert pre + key + d + post == pre + key + (d + post);
    DigitsThenNoKey(d, post, key);
    SecondFieldIsRest(pre, key, d + post);
    DigitsField(d, post);
    ParseDecimal(n);
  }

  /** The integer `int(line.split(word)[0].strip().split()[-1])`, if it parses. */
  function CountBefore(line: string, word: string): Option<int>
    requires |word| > 0
  {
    var ws := Words(Strip(Before(line, word)));
    if |ws| == 0 then None else ParseInt(ws[|ws| - 1])
  }

  /** The count a line reports for `word`: none when the word is absent. */
  function Offered(line: string, word: string): Option<int>
    requires |word| > 0
  {
    if Contains(line, word) then CountBefore(line, word) else None
  }

  /**
   The counts one line of the pytest summary reports: nothing unless it mentions `passed`
   or `failed`; `tests_run` takes both the passed and the failed tests.
   */
  function PytestDelta(line: string): Counts {
    if Contains(line, "passed") || Contains(line, "failed") then
      var passed := Offered(line, "passed");
      var failed := Offered(line, "failed");
      var error := Offered(line, "error");
      var skipped := Offered(line, "skipped");
      Counts(passed.GetOr(0) + failed.GetOr(0), failed.GetOr(0), error.GetOr(0), skipped.GetOr(0))
    else Counts(0, 0, 0, 0)
  }

  /** One line of the pytest summary parsing loop; unlike unittest, counts add up. */
  function PytestLine(c: Counts, line: string): Counts {
    Add(c, PytestDelta(line))
  }

  function PytestLines(c: Counts, lines: seq<string>): Counts
    decreases |lines|
  {
    if |lines| == 0 then c else PytestLines(PytestLine(c, lines[0]), lines[1..])
  }

  /** The pytest counts: what every line of the output reports, added up. */
  function ParsePytestOutput(output: string): (r: Counts)
    ensures r == SumDeltas(Split(output, '\n'))
  {
    PytestAccumulates(Counts(0, 0, 0, 0), Split(output, '\n'));
    PytestLines(Counts(0, 0, 0, 0), Split(output, '\n'))
  }

  /** Counts added field by field. */
  function Add(a: Counts, b: Counts): Counts {
    Counts(a.testsRun + b.testsRun, a.failures + b.failures, a.errors + b.errors, a.skipped + b.skipped)
  }

  /** What all the lines report together. */
  function SumDeltas(lines: seq<string>): Counts {
    if |lines| == 0 then Counts(0, 0, 0, 0) else Add(PytestDelta(lines[0]), SumDeltas(lines[1..]))
  }

  lemma AddAssociates(a: Counts, b: Counts, c: Counts)
    ensures Add(Add(a, b), c) == Add(a, Add(b, c))
  {
  }

  /** The pytest parser adds up what every summary line reports, so `tests_run` counts passed and failed tests of all lines. */
  lemma {:induction false} PytestAccumulates(c: Counts, lines: seq<string>)
    ensures PytestLines(c, lines) == Add(c, SumDeltas(lines))
    decreases |lines|
  {
    if |lines| > 0 {
      var d, rest := PytestDelta(lines[0]), SumDeltas(lines[1..]);
      PytestAccumulates(Add(c, d), lines[1..]);
      AddAssociates(c, d, rest);
    }
  }

  // ---------------------------------------------------------------------------
  // One file
  // ---------------------------------------------------------------------------

  /** How the subprocess for one file ended. */
  datatype Outcome =
    | Exited(code: int, output: string)   // stdout + stderr
    | TimedOut                            // the 30-second bound was exceeded
    | Crashed(message: string)            // any other exception, `str(e)`

  datatype FileStatus = Passed | Failed | Timeout | Error

  datatype FileResult = FileResult(
    file: string, status: FileStatus,
    testsRun: int, failures: int, errors: int, skipped: int,
    output: string, returnCode: int)

  const TimeoutSeconds: nat := 30
  const TimeoutOutput: string := "Test execution timed out after 30 seconds"
  const ErrorPrefix: string := "Error executing tests: "

  /** The result of a file whose subprocess did not exit normally. */
  function Abnormal(file: string, status: FileStatus, output: string): FileResult {
    FileResult(file, status, 0, 0, 1, 0, output, -1)
  }

  /** `execute_unittest_file`: classifies the outcome of `python -m unittest <module> -v`. */
  function ExecuteUnittestFile(file: string, outcome: Outcome): (r: FileResult)
    ensures r.file == file
    ensures r.status == Passed <==> outcome.Exited? && outcome.code == 0
    ensures r.status == Failed <==> outcome.Exited? && outcome.code != 0
    ensures r.status == Timeout <==> outcome.TimedOut?
    ensures !outcome.Exited? ==> r.testsRun == 0 && r.failures == 0 && r.errors == 1 && r.returnCode == -1
    ensures r.skipped == 0
    ensures outcome.Exited? ==>
              var c := ParseUnittestOutput(outcome.output);
              && r.testsRun == c.testsRun && r.failures == c.failures && r.errors == c.errors
              && r.output == outcome.output && r.returnCode == outcome.code
    ensures outcome.TimedOut? ==> r.output == TimeoutOutput
    ensures outcome.Crashed? ==> r.output == ErrorPrefix + outcome.message
  {
    match outcome
    case Exited(code, output) =>
      var c := ParseUnittestOutput(output);
      FileResult(file, if code == 0 then Passed else Failed,
                 c.testsRun, c.failures, c.errors, 0, output, code)
    case TimedOut => Abnormal(file, Timeout, TimeoutOutput)
    case Crashed(message) => Abnormal(file, Error, ErrorPrefix + message)
  }

  /** The outcome of `python -m pytest --version`; it has no time bound. */
  datatype Probe = ProbeExited(code: int) | ProbeCrashed(message: string)

  /**
   `execute_pytest_file`: when the pytest probe exits non-zero the file goes to the unittest
   path (with its own subprocess, `fallback`); otherwise pytest's summary lines are parsed.
   */
  function ExecutePytestFile(file: string, probe: Probe, pytestRun: Outcome, fallback: Outcome): (r: FileResult)
    ensures probe.ProbeExited? && probe.code != 0 ==> r == ExecuteUnittestFile(file, fallback)
    ensures r.file == file
    ensures probe.ProbeCrashed? ==> r.status == Error && r.errors == 1 && r.returnCode == -1
    ensures probe.ProbeCrashed? ==> r.testsRun == 0 && r.failures == 0 && r.skipped == 0
    ensures probe.ProbeCrashed? ==> r.output == ErrorPrefix + probe.message
    ensures probe == ProbeExited(0) ==>
              (r.status == Passed <==> pytestRun.Exited? && pytestRun.code == 0)
    ensures probe == ProbeExited(0) && pytestRun.Exited? ==>
              var c := ParsePytestOutput(pytestRun.output);
              && (r.status == Failed <==> pytestRun.code != 0)
              && r.testsRun == c.testsRun && r.failures == c.failures && r.errors == c.errors
              && r.skipped == c.skipped
              && r.output == pytestRun.output && r.returnCode == pytestRun.code
    ensures probe == ProbeExited(0) && !pytestRun.Exited? ==>
              && r.status == (if pytestRun.TimedOut? then Timeout else Error)
              && r.testsRun == 0 && r.failures == 0 && r.errors == 1 && r.skipped == 0 && r.returnCode == -1
              && r.output == (if pytestRun.TimedOut? then TimeoutOutput else ErrorPrefix + pytestRun.message)
  {
    match probe
    case ProbeCrashed(message) => Abnormal(file, Error, ErrorPrefix + message)
    case ProbeExited(code) =>
      if code != 0 then ExecuteUnittestFile(file, fallback)
      else
        match pytestRun
        case Exited(rc, output) =>
          var c := ParsePytestOutput(output);
          FileResult(file, if rc == 0 then Passed else Failed,
                     c.testsRun, c.failures, c.errors, c.skipped, output, rc)
        case TimedOut => Abnormal(file, Timeout, TimeoutOutput)
        case Crashed(message) => Abnormal(file, Error, ErrorPrefix + message)
  }

  // ---------------------------------------------------------------------------
  // The roll-up
  // ---------------------------------------------------------------------------

  datatype ReportStatus = AllPassed | SomeFailed | NoTests | ExecutionError

  /** The report's `message`. */
  datatype ReportMessage = NoTestFiles | ExecutedFiles(count: nat) | ExecutionFailed(reason: string)

  datatype Report = Report(
    status: ReportStatus, message: ReportMessage,
    totalTests: int, totalPassed: int, totalFailed: int, totalErrors: int,
    testResults: seq<FileResult>)

  /** The status strings the report carries. */
  function StatusName(s: ReportStatus): string {
    match s
    case AllPassed => "passed"
    case SomeFailed => "failed"
    case NoTests => "no_tests"
    case ExecutionError => "error"
  }

  /** Tests of one file counted as passed: run minus failures minus errors, never below zero. */
  function PassedIn(r: FileResult): int {
    var p := r.testsRun - r.failures - r.errors;
    if p < 0 then 0 else p
  }

  function SumTests(rs: seq<FileResult>): int {
    if |rs| == 0 then 0 else SumTests(rs[..|rs| - 1]) + rs[|rs| - 1].testsRun
  }

  function SumPassed(rs: seq<FileResult>): int {
    if |rs| == 0 then 0 else SumPassed(rs[..|rs| - 1]) + PassedIn(rs[|rs| - 1])
  }

  function SumFailures(rs: seq<FileResult>): int {
    if |rs| == 0 then 0 else SumFailures(rs[..|rs| - 1]) + rs[|rs| - 1].failures
  }

  function SumErrors(rs: seq<FileResult>): int {
    if |rs| == 0 then 0 else SumErrors(rs[..|rs| - 1]) + rs[|rs| - 1].errors
  }

  /** The overall status from the totals: failures or errors first, then whether any test ran. */
  function OverallStatus(totalTests: int, totalFailed: int, totalErrors: int): (r: ReportStatus)
    ensures r != ExecutionError
    ensures r == AllPassed ==> totalTests != 0 && totalFailed <= 0 && totalErrors <= 0
  {
    if totalErrors > 0 || totalFailed > 0 then SomeFailed
    else if totalTests == 0 then NoTests
    else AllPassed
  }

  /** The report over the per-file results, as a reference for the aggregation loop. */
  function Rollup(results: seq<FileResult>): Report {
    if |results| == 0 then Report(NoTests, NoTestFiles, 0, 0, 0, 0, [])
    else
      Report(OverallStatus(SumTests(results), SumFailures(results), SumErrors(results)),
             ExecutedFiles(|results|),
             SumTests(results), SumPassed(results), SumFailures(results), SumErrors(results),
             results)
  }

  /** The degraded report that stands in when running the tests raised. */
  function ErrorReport(reason: string): Report {
    Report(ExecutionError, ExecutionFailed(reason), 0, 0, 0, 0, [])
  }

  /** The outcome of the `k`-th subprocess, which runs file `name`. */
  type Runner = (nat, string) -> Outcome

  /** One result per file, in order, each the unittest path's result for that file's outcome. */
  predicate RunsEach(results: seq<FileResult>, files: seq<string>, run: Runner) {
    && |results| == |files|
    && forall k :: 0 <= k < |files| ==> results[k] == ExecuteUnittestFile(files[k], run(k, files[k]))
  }

  /**
   The loop of `execute_all_tests`: each file goes through the unittest path in discovery
   order, and the four totals are accumulated file by file, with the passed count of a
   file clamped at 0.
   */
  method RunEachFile(files: seq<string>, run: Runner)
    returns (results: seq<FileResult>, totalTests: int, totalPassed: int, totalFailed: int, totalErrors: int)
    ensures RunsEach(results, files, run)
    ensures totalTests == SumTests(results) && totalPassed == SumPassed(results)
    ensures totalFailed == SumFailures(results) && totalErrors == SumErrors(results)
  {
    results := [];
    totalTests, totalPassed, totalFailed, totalErrors := 0, 0, 0, 0;
    var i := 0;
    while i < |files|
      invariant 0 <= i <= |files| && |results| == i
      invariant forall k :: 0 <= k < i ==> results[k] == ExecuteUnittestFile(files[k], run(k, files[k]))
      invariant totalTests == SumTests(results)
      invariant totalPassed == SumPassed(results)
      invariant totalFailed == SumFailures(results)
      invariant totalErrors == SumErrors(results)
    {
      var result := ExecuteUnittestFile(files[i], run(i, files[i]));
      assert (results + [result])[..i] == results;
      results := results + [result];
      totalTests := totalTests + result.testsRun;
      var passedInFile := result.testsRun - result.failures - result.errors;
      if passedInFile < 0 {
        passedInFile := 0;
      }
      totalPassed := totalPassed + passedInFile;
      totalFailed := totalFailed + result.failures;
      totalErrors := totalErrors + result.errors;
      i := i + 1;
    }
  }

  /**
   `execute_all_tests`: no discovered file gives the `no_tests` report; otherwise every
   file is run and the overall status is chosen from the totals.
   */
  method ExecuteAllTests(listing: Option<seq<string>>, run: Runner) returns (r: Report)
    ensures RunsEach(r.testResults, FindTestFiles(listing), run)
    ensures r == Rollup(r.testResults)
  {
    var files := FindTestFiles(listing);
    if |files| == 0 {
      return Report(NoTests, NoTestFiles, 0, 0, 0, 0, []);
    }
    var results, totalTests, totalPassed, totalFailed, totalErrors := RunEachFile(files, run);
    var overall := AllPassed;
    if totalErrors > 0 || totalFailed > 0 {
      overall := SomeFailed;
    } else if totalTests == 0 {
      overall := NoTests;
    }
    r := Report(overall, ExecutedFiles(|files|), totalTests, totalPassed, totalFailed, totalErrors, results);
  }

  // ---------------------------------------------------------------------------
  // Properties of the roll-up
  // ---------------------------------------------------------------------------

  /** Results that agree file by file on their counts. */
  predicate SameCounts(a: seq<FileResult>, b: seq<FileResult>) {
    |a| == |b| &&
    forall k :: 0 <= k < |a| ==>
      a[k].testsRun == b[k].testsRun && a[k].failures == b[k].failures && a[k].errors == b[k].errors
  }

  lemma {:induction false} SumsAgree(a: seq<FileResult>, b: seq<FileResult>)
    requires SameCounts(a, b)
    ensures SumTests(a) == SumTests(b) && SumPassed(a) == SumPassed(b)
    ensures SumFailures(a) == SumFailures(b) && SumErrors(a) == SumErrors(b)
    decreases |a|
  {
    if |a| > 0 {
      SumsAgree(a[..|a| - 1], b[..|b| - 1]);
    }
  }

  /**
   The overall status and the totals ignore each file's status and return code: files
   that exited non-zero but whose output parsed to the same counts give the same report.
   */
  lemma RollupIgnoresReturnCodes(a: seq<FileResult>, b: seq<FileResult>)
    requires SameCounts(a, b)
    ensures Rollup(a).status == Rollup(b).status
    ensures Rollup(a).totalTests == Rollup(b).totalTests && Rollup(a).totalPassed == Rollup(b).totalPassed
    ensures Rollup(a).totalFailed == Rollup(b).totalFailed && Rollup(a).totalErrors == Rollup(b).totalErrors
  {
    SumsAgree(a, b);
  }

  lemma {:induction false} TimeoutErrorsCount(rs: seq<FileResult>)
    requires forall k :: 0 <= k < |rs| ==> rs[k].status == Timeout && rs[k].errors == 1 && rs[k].testsRun == 0
    ensures SumErrors(rs) == |rs| && SumTests(rs) == 0
    decreases |rs|
  {
    if |rs| > 0 {
      TimeoutErrorsCount(rs[..|rs| - 1]);
    }
  }

  /** A run in which every discovered file times out fails, with one error per file and no tests. */
  lemma AllTimeoutsFail(files: seq<string>, run: Runner)
    requires |files| > 0
    requires forall k :: 0 <= k < |files| ==> run(k, files[k]).TimedOut?
    ensures var rs := seq(|files|, k requires 0 <= k < |files| => ExecuteUnittestFile(files[k], run(k, files[k])));
            && Rollup(rs).status == SomeFailed
            && Rollup(rs).totalErrors == |files|
            && Rollup(rs).totalTests == 0
  {
    var rs := seq(|files|, k requires 0 <= k < |files| => ExecuteUnittestFile(files[k], run(k, files[k])));
    TimeoutErrorsCount(rs);
  }

  /** The status is `failed` exactly when some failure or error was counted, and `passed` needs a test. */
  lemma OverallStatusRules(t: int, f: int, e: int)
    ensures OverallStatus(t, f, e) == SomeFailed <==> f > 0 || e > 0
    ensures OverallStatus(t, f, e) == NoTests <==> f <= 0 && e <= 0 && t == 0
    ensures OverallStatus(t, f, e) == AllPassed <==> f <= 0 && e <= 0 && t != 0
  {
  }
}

=== FILE: text.dfy ===
/**
 The Python `str` operations the pipeline relies on, over `seq<char>`: `isspace`,
 `strip`, `in`, `split(sep)`, `split()`, ASCII `lower` and `int()`.
 */
module Text {
  import opened Wrappers

  /** Python's `str.isspace` on one character; `\s` in a `str` regex matches the same set. */
  predicate IsSpace(c: char) {
    || ('\t' <= c <= '\r')
    || ('\U{1C}' <= c <= ' ')
    || c == '\U{85}' || c == '\U{A0}' || c == '\U{1680}'
    || ('\U{2000}' <= c <= '\U{200A}')
    || c == '\U{2028}' || c == '\U{2029}' || c == '\U{202F}' || c == '\U{205F}'
    || c == '\U{3000}'
  }

  predicate AllSpace(s: string) {
    forall i :: 0 <= i < |s| ==> IsSpace(s[i])
  }

  predicate NoSpace(s: string) {
    forall i :: 0 <= i < |s| ==> !IsSpace(s[i])
  }

  // ---------------------------------------------------------------------------
  // Substring search (Python's `pat in s` and `s.find(pat, from)`)
  // ---------------------------------------------------------------------------

  predicate OccursAt(s: string, pat: string, i: int) {
    0 <= i && i + |pat| <= |s| && s[i..i + |pat|] == pat
  }

  /** Python's `pat in s`. */
  predicate Contains(s: string, pat: string) {
    exists i | 0 <= i <= |s| - |pat| :: OccursAt(s, pat, i)
  }

  /** The first occurrence of `pat` in `s` at or after `from`. */
  function FindFrom(s: string, pat: string, from: nat): (r: Option<nat>)
    decreases |s| - from
    ensures r.Some? ==> from <= r.value && OccursAt(s, pat, r.value)
    ensures r.Some? ==> forall j :: from <= j < r.value ==> !OccursAt(s, pat, j)
    ensures r.None? ==> forall j :: from <= j ==> !OccursAt(s, pat, j)
  {
    if from + |pat| > |s| then None
    else if s[from..from + |pat|] == pat then Some(from)
    else FindFrom(s, pat, from + 1)
  }

  lemma FindIffContains(s: string, pat: string)
    ensures FindFrom(s, pat, 0).Some? <==> Contains(s, pat)
  {
    if Contains(s, pat) {
      var i :| 0 <= i <= |s| - |pat| && OccursAt(s, pat, i);
    }
  }

  /** An occurrence of `pat` in `a` is still one in `a + b`, and one in `b` shifts by `|a|`. */
  lemma OccursInConcat(a: string, b: string, pat: string, i: int)
    ensures OccursAt(a, pat, i) ==> OccursAt(a + b, pat, i)
    ensures OccursAt(b, pat, i) ==> OccursAt(a + b, pat, |a| + i)
  {
    if OccursAt(a, pat, i) {
      assert (a + b)[i..i + |pat|] == a[i..i + |pat|];
    }
    if OccursAt(b, pat, i) {
      assert (a + b)[|a| + i..|a| + i + |pat|] == b[i..i + |pat|];
    }
  }

  // ---------------------------------------------------------------------------
  // Whitespace runs, strip
  // ---------------------------------------------------------------------------

  /** Length of the run of non-space characters that starts `s`. */
  function SpanNonSpace(s: string): (n: nat)
    ensures n <= |s|
    ensures forall k :: 0 <= k < n ==> !IsSpace(s[k])
    ensures n < |s| ==> IsSpace(s[n])
  {
    if |s| == 0 || IsSpace(s[0]) then 0 else 1 + SpanNonSpace(s[1..])
  }

  /** Length of the run of space characters that starts `s`. */
  function SpanSpace(s: string): (n: nat)
    ensures n <= |s|
    ensures forall k :: 0 <= k < n ==> IsSpace(s[k])
    ensures n < |s| ==> !IsSpace(s[n])
  {
    if |s| == 0 || !IsSpace(s[0]) then 0 else 1 + SpanSpace(s[1..])
  }

  /** Python's `s.lstrip()`. */
  function TrimLeft(s: string): (r: string)
    ensures |r| <= |s| && r == s[|s| - |r|..]
    ensures |r| > 0 ==> !IsSpace(r[0])
    ensures forall k :: 0 <= k < |s| - |r| ==> IsSpace(s[k])
  {
    s[SpanSpace(s)..]
  }

  /** Python's `s.rstrip()`. */
  function TrimRight(s: string): (r: string)
    ensures |r| <= |s| && r == s[..|r|]
    ensures |r| > 0 ==> !IsSpace(r[|r| - 1])
    ensures forall k :: |r| <= k < |s| ==> IsSpace(s[k])
  {
    if |s| > 0 && IsSpace(s[|s| - 1]) then TrimRight(s[..|s| - 1]) else s
  }

  /** Python's `s.strip()`: a slice of `s` that neither starts nor ends with a space, with only spaces cut off. */
  function Strip(s: string): (r: string)
    ensures |r| <= |s|
    ensures |r| > 0 ==> !IsSpace(r[0]) && !IsSpace(r[|r| - 1])
    ensures exists a :: 0 <= a <= |s| - |r| && r == s[a..a + |r|]
                         && AllSpace(s[..a]) && AllSpace(s[a + |r|..])
  {
    var t := TrimLeft(s);
    var r := TrimRight(t);
    var a := |s| - |t|;
    assert s[a + |r|..] == t[|r|..];
    assert 0 <= a <= |s| - |r| && r == s[a..a + |r|] && AllSpace(s[..a]) && AllSpace(s[a + |r|..]);
    r
  }

  /** Python's `not s.strip()`. */
  predicate IsBlank(s: string) {
    |Strip(s)| == 0
  }

  lemma BlankIffAllSpace(s: string)
    ensures IsBlank(s) <==> AllSpace(s)
  {
    var t := TrimLeft(s);
    var r := TrimRight(t);
    var a := |s| - |t|;
    assert Strip(s) == r;
    if |r| == 0 {
      assert |t| == 0;
    } else {
      assert s[a] == t[0] == r[0];
    }
  }

  /** A string without spaces strips to itself. */
  lemma StripNoSpace(s: string)
    requires NoSpace(s)
    ensures Strip(s) == s
  {
    assert TrimLeft(s) == s;
    if |s| > 0 {
      assert !IsSpace(s[|s| - 1]);
    }
  }

  // ---------------------------------------------------------------------------
  // Splitting
  // ---------------------------------------------------------------------------

  /** Python's `s.split(sep)` for a one-character separator. */
  function Split(s: string, sep: char): (parts: seq<string>)
    decreases |s|
    ensures |parts| >= 1
    ensures forall k :: 0 <= k < |parts| ==> sep !in parts[k]
  {
    match FindFrom(s, [sep], 0)
    case None =>
      assert sep !in s by {
        if sep in s {
          var i :| 0 <= i < |s| && s[i] == sep;
          assert OccursAt(s, [sep], i);
        }
      }
      [s]
    case Some(i) =>
      assert sep !in s[..i] by {
        if sep in s[..i] {
          var j :| 0 <= j < i && s[..i][j] == sep;
          assert OccursAt(s, [sep], j);
        }
      }
      [s[..i]] + Split(s[i + 1..], sep)
  }

  /** Python's `sep.join(parts)`. */
  function Join(parts: seq<string>, sep: char): string
    requires |parts| >= 1
  {
    if |parts| == 1 then parts[0] else parts[0] + [sep] + Join(parts[1..], sep)
  }

  /** Splitting loses nothing: joining the pieces back gives the original text. */
  lemma {:induction false} JoinSplit(s: string, sep: char)
    ensures Join(Split(s, sep), sep) == s
    decreases |s|
  {
    match FindFrom(s, [sep], 0)
    case None =>
    case Some(i) =>
      var rest := Split(s[i + 1..], sep);
      var parts := [s[..i]] + rest;
      assert Split(s, sep) == parts;
      assert parts[1..] == rest;
      JoinSplit(s[i + 1..], sep);
      assert Join(parts, sep) == s[..i] + [sep] + s[i + 1..];
      assert s == s[..i] + [sep] + s[i + 1..];
  }

  /** Python's `s.split(pat)[0]`: the text before the first occurrence of `pat`, or all of `s`. */
  function Before(s: string, pat: string): (r: string)
    requires |pat| > 0
    ensures Contains(s, pat) ==> OccursAt(s, pat, |r|)
    ensures !Contains(s, pat) ==> r == s
    ensures |r| <= |s| && r == s[..|r|] && !Contains(r, pat)
    ensures forall j :: 0 <= j < |r| ==> !OccursAt(s, pat, j)
  {
    match FindFrom(s, pat, 0)
    case None =>
      FindIffContains(s, pat);
      s
    case Some(i) =>
      assert !Contains(s[..i], pat) by {
        forall j | 0 <= j <= i - |pat| ensures !OccursAt(s[..i], pat, j) {
          assert !OccursAt(s, pat, j);
          assert s[..i][j..j + |pat|] == s[j..j + |pat|];
        }
      }
      s[..i]
  }

  /** Python's `s.split(pat)[1]`: the text between the first and the second occurrence of `pat`. */
  function SecondField(s: string, pat: string): (r: string)
    requires |pat| > 0 && Contains(s, pat)
  {
    FindIffContains(s, pat);
    var i := FindFrom(s, pat, 0).value;
    Before(s[i + |pat|..], pat)
  }

  /** Python's `s.split()`: the maximal runs of non-space characters, in order. */
  function Words(s: string): (ws: seq<string>)
    decreases |s|
    ensures forall k :: 0 <= k < |ws| ==> |ws[k]| > 0 && NoSpace(ws[k])
  {
    var t := TrimLeft(s);
    if |t| == 0 then []
    else
      var n := SpanNonSpace(t);
      [t[..n]] + Words(t[n..])
  }

  /** A leading run of `n` non-space characters that ends at a space or at the end is what `SpanNonSpace` measures. */
  lemma {:induction false} SpanNonSpaceIs(t: string, n: nat)
    requires n <= |t| && (n == |t| || IsSpace(t[n]))
    requires forall k :: 0 <= k < n ==> !IsSpace(t[k])
    ensures SpanNonSpace(t) == n
    decreases n
  {
    if n > 0 {
      SpanNonSpaceIs(t[1..], n - 1);
    }
  }

  /**
   `split()` cuts at maximal runs: text of spaces only has no words, a leading space is
   skipped, and a leading run of non-space characters that ends at a space or at the end
   of `s` is the first word. These three equations determine the words of every text.
   */
  lemma WordsAreRuns(s: string)
    ensures AllSpace(s) ==> Words(s) == []
    ensures |s| > 0 && IsSpace(s[0]) ==> Words(s) == Words(s[1..])
    ensures forall n :: 0 < n <= |s| && NoSpace(s[..n]) && (n == |s| || IsSpace(s[n])) ==>
              Words(s) == [s[..n]] + Words(s[n..])
  {
    if |s| > 0 && IsSpace(s[0]) {
      var k := SpanSpace(s[1..]);
      assert SpanSpace(s) == 1 + k;
      assert TrimLeft(s) == s[1..][k..];
    }
    forall n | 0 < n <= |s| && NoSpace(s[..n]) && (n == |s| || IsSpace(s[n]))
      ensures Words(s) == [s[..n]] + Words(s[n..])
    {
      assert s[..n][0] == s[0];
      assert TrimLeft(s) == s;
      forall k | 0 <= k < n ensures !IsSpace(s[k]) {
        assert s[..n][k] == s[k];
      }
      SpanNonSpaceIs(s, n);
    }
  }

  /** `s` with every space character removed. */
  function DropSpaces(s: string): string {
    if |s| == 0 then [] else (if IsSpace(s[0]) then [] else [s[0]]) + DropSpaces(s[1..])
  }

  function Concat(ws: seq<string>): string {
    if |ws| == 0 then [] else ws[0] + Concat(ws[1..])
  }

  lemma {:induction false} DropSpacesAppend(a: string, b: string)
    ensures DropSpaces(a + b) == DropSpaces(a) + DropSpaces(b)
    decreases |a|
  {
    if |a| == 0 {
      assert a + b == b;
    } else {
      DropSpacesAppend(a[1..], b);
      var head: string := if IsSpace(a[0]) then [] else [a[0]];
      assert (a + b)[0] == a[0];
      assert (a + b)[1..] == a[1..] + b;
      calc {
        DropSpaces(a + b);
        head + DropSpaces(a[1..] + b);
        head + (DropSpaces(a[1..]) + DropSpaces(b));
        (head + DropSpaces(a[1..])) + DropSpaces(b);
        DropSpaces(a) + DropSpaces(b);
      }
    }
  }

  lemma {:induction false} DropSpacesOfSpaces(s: string)
    requires AllSpace(s)
    ensures DropSpaces(s) == []
    decreases |s|
  {
    if |s| > 0 { DropSpacesOfSpaces(s[1..]); }
  }

  lemma {:induction false} DropSpacesOfWord(s: string)
    requires NoSpace(s)
    ensures DropSpaces(s) == s
    decreases |s|
  {
    if |s| > 0 { DropSpacesOfWord(s[1..]); }
  }

  /** The words of `s`, put back together, are exactly the non-space characters of `s`. */
  lemma {:induction false} WordsCoverText(s: string)
    ensures Concat(Words(s)) == DropSpaces(s)
    decreases |s|
  {
    var t := TrimLeft(s);
    var lead := s[..|s| - |t|];
    assert s == lead + t;
    DropSpacesAppend(lead, t);
    DropSpacesOfSpaces(lead);
    if |t| > 0 {
      var n := SpanNonSpace(t);
      assert t == t[..n] + t[n..];
      DropSpacesAppend(t[..n], t[n..]);
      DropSpacesOfWord(t[..n]);
      WordsCoverText(t[n..]);
    }
  }

  // ---------------------------------------------------------------------------
  // Case
  // ---------------------------------------------------------------------------

  /** ASCII lower-casing of one character. */
  function LowerChar(c: char): char {
    if 'A' <= c <= 'Z' then (c as int + 32) as char else c
  }

  /** ASCII upper-casing of one character. */
  function UpperChar(c: char): char {
    if 'a' <= c <= 'z' then (c as int - 32) as char else c
  }

  /** Python's `s.lower()`, restricted to ASCII letters. */
  function Lower(s: string): (r: string)
    ensures |r| == |s|
  {
    seq(|s|, i requires 0 <= i < |s| => LowerChar(s[i]))
  }

  /** Python's `s.upper()`, restricted to ASCII letters. */
  function Upper(s: string): (r: string)
    ensures |r| == |s|
  {
    seq(|s|, i requires 0 <= i < |s| => UpperChar(s[i]))
  }

  /** Lower-casing forgets the case a text was written in. */
  lemma LowerForgetsCase(s: string)
    ensures Lower(Lower(s)) == Lower(s)
    ensures Lower(Upper(s)) == Lower(s)
  {
    assert forall i :: 0 <= i < |s| ==> Lower(Lower(s))[i] == Lower(s)[i];
    assert forall i :: 0 <= i < |s| ==> Lower(Upper(s))[i] == Lower(s)[i];
  }

  // ---------------------------------------------------------------------------
  // Integers
  // ---------------------------------------------------------------------------

  predicate IsDigit(c: char) {
    '0' <= c <= '9'
  }

  predicate IsDigits(s: string) {
    |s| > 0 && forall i :: 0 <= i < |s| ==> IsDigit(s[i])
  }

  function DigitValue(c: char): nat
    requires IsDigit(c)
  {
    c as int - '0' as int
  }

  function DigitsValue(s: string): nat
    requires forall i :: 0 <= i < |s| ==> IsDigit(s[i])
  {
    if |s| == 0 then 0 else DigitsValue(s[..|s| - 1]) * 10 + DigitValue(s[|s| - 1])
  }

  /** An optional sign followed by ASCII decimal digits. */
  predicate Numeral(t: string) {
    IsDigits(t) || (|t| > 0 && (t[0] == '+' || t[0] == '-') && IsDigits(t[1..]))
  }

  /**
   Python's `int(s)` on a `str`: surrounding spaces, an optional sign, then ASCII decimal
   digits. Anything else is refused, and only a minus sign gives a negative value.
   */
  function ParseInt(s: string): (r: Option<int>)
    ensures r.Some? <==> Numeral(Strip(s))
    ensures r.Some? && r.value < 0 ==> Strip(s)[0] == '-'
  {
    ParseSigned(Strip(s))
  }

  /** `int()` on text that has already been stripped. */
  function ParseSigned(t: string): Option<int> {
    if |t| > 0 && (t[0] == '+' || t[0] == '-') then
      if IsDigits(t[1..]) then
        var v: int := DigitsValue(t[1..]);
        Some(if t[0] == '-' then -v else v)
      else None
    else if IsDigits(t) then Some(DigitsValue(t))
    else None
  }

  /** Python's `str(n)` for a natural number. */
  function Decimal(n: nat): (r: string)
    ensures IsDigits(r)
  {
    if n < 10 then [('0' as int + n) as char]
    else Decimal(n / 10) + [('0' as int + n % 10) as char]
  }

  lemma {:induction false} DecimalValue(n: nat)
    ensures DigitsValue(Decimal(n)) == n
  {
    if n >= 10 {
      DecimalValue(n / 10);
      var d := Decimal(n);
      assert d[..|d| - 1] == Decimal(n / 10);
    }
  }

  lemma DigitsNoSpace(d: string)
    requires IsDigits(d)
    ensures NoSpace(d)
  {
    forall i | 0 <= i < |d| ensures !IsSpace(d[i]) {
      assert IsDigit(d[i]);
    }
  }

  lemma ParseDigits(d: string)
    requires IsDigits(d)
    ensures ParseSigned(d) == Some(DigitsValue(d) as int)
  {
    assert IsDigit(d[0]);
  }

  /** `int(str(n)) == n`. */
  lemma ParseDecimal(n: nat)
    ensures ParseInt(Decimal(n)) == Some(n as int)
  {
    var d := Decimal(n);
    DecimalValue(n);
    DigitsNoSpace(d);
    StripNoSpace(d);
    ParseDigits(d);
  }

  /** `int("-" + str(n)) == -n`. */
  lemma ParseNegativeDecimal(n: nat)
    ensures ParseInt("-" + Decimal(n)) == Some(-(n as int))
  {
    DecimalValue(n);
    var d := Decimal(n);
    var m := "-" + d;
    NegativeNoSpace(d);
    StripNoSpace(m);
    assert m[1..] == d;
    assert ParseSigned(m) == Some(-(n as int));
  }

  lemma NegativeNoSpace(d: string)
    requires IsDigits(d)
    ensures NoSpace("-" + d)
  {
    var m := "-" + d;
    forall i | 0 <= i < |m| ensures !IsSpace(m[i]) {
      if i > 0 { assert m[i] == d[i - 1]; assert IsDigit(d[i - 1]); }
    }
  }
}

=== FILE: unique_bsts.dfy ===
/**
 `uniqueBSTs` in workspace/main.py, a sample program the pipeline generated: the number of
 binary search trees on the keys 1..n, by the Catalan recurrence over a table `dp`.
 A search tree on 1..n is fixed by its shape (the keys go in order), so the count is the
 number of binary tree shapes with n nodes; the shapes are enumerated below as an
 independent reference.
 */
module UniqueBsts {

  // ---------------------------------------------------------------------------
  // The recurrence
  // ---------------------------------------------------------------------------

  /** C(0) = 1 and C(i) = C(0)·C(i-1) + C(1)·C(i-2) + ... + C(i-1)·C(0). */
  function Catalan(n: nat): (r: nat)
    decreases n, 1
    ensures r >= 1
  {
    if n == 0 then 1 else SumProducts(n, n)
  }

  /** The first `k` terms C(j-1)·C(i-j), j = 1..k, of the sum for C(i). */
  function SumProducts(i: nat, k: nat): (r: nat)
    requires k <= i
    decreases i, 0, k
    ensures r >= k
  {
    if k == 0 then 0 else SumProducts(i, k - 1) + Catalan(k - 1) * Catalan(i - k)
  }

  /** What a call returns: a count, or the exception it raises. */
  datatype Result = Count(value: int) | IndexError | ValueError

  /**
   The table loop for n >= 1: `dp[i]` is accumulated term by term, and the cells above the
   current row stay 0 until their turn.
   */
  method CatalanTable(n: int) returns (table: seq<int>)
    requires n >= 1
    ensures |table| == n + 1
    ensures forall k :: 0 <= k <= n ==> table[k] == Catalan(k)
  {
    var dp := new int[n + 1](_ => 0);
    dp[0] := 1;
    dp[1] := 1;
    assert Catalan(1) == 1 by {
      assert SumProducts(1, 1) == SumProducts(1, 0) + Catalan(0) * Catalan(0);
    }
    var i := 2;
    while i <= n
      invariant 2 <= i <= n + 1
      invariant forall k :: 0 <= k < i ==> dp[k] == Catalan(k)
      invariant forall k :: i <= k <= n ==> dp[k] == 0
    {
      dp[i] := 0;
      var j := 1;
      while j <= i
        invariant 1 <= j <= i + 1
        invariant dp[i] == SumProducts(i, j - 1)
        invariant forall k :: 0 <= k < i ==> dp[k] == Catalan(k)
        invariant forall k :: i < k <= n ==> dp[k] == 0
      {
        dp[i] := dp[i] + dp[j - 1] * dp[i - j];
        j := j + 1;
      }
      i := i + 1;
    }
    table := dp[..];
  }

  /**
   `uniqueBSTs` as written. `[0] * (n + 1)` has no cells when n + 1 <= 0, so `dp[0] = 1`
   fails for negative n, and it has one cell for n = 0, so `dp[1] = 1` fails there.
   */
  method UniqueBstsAsWritten(n: int) returns (r: Result)
    ensures n < 1 ==> r == IndexError
    ensures n >= 1 ==> r == Count(Catalan(n))
  {
    var cells := if n + 1 > 0 then n + 1 else 0;
    if cells < 1 {
      return IndexError;
    }
    if cells < 2 {
      return IndexError;
    }
    var table := CatalanTable(n);
    r := Count(table[n]);
  }

  /** n = 0 raises instead of giving the one empty tree that `uniqueBSTs(0) == 1` expects. */
  method ZeroNotHandled() returns (r: Result)
    ensures r == IndexError && r != Count(Catalan(0))
  {
    r := UniqueBstsAsWritten(0);
  }

  /** A negative n raises `IndexError`, not the `ValueError` the tests expect. */
  method NegativeNotRejected(n: int) returns (r: Result)
    requires n < 0
    ensures r == IndexError && r != ValueError
  {
    r := UniqueBstsAsWritten(n);
  }

  /** `uniqueBSTs` as intended: negative n is rejected, n = 0 gives 1, and n >= 1 uses the table. */
  method UniqueBstsCorrected(n: int) returns (r: Result)
    ensures n < 0 ==> r == ValueError
    ensures n >= 0 ==> r == Count(Catalan(n))
  {
    if n < 0 {
      return ValueError;
    }
    if n == 0 {
      return Count(1);
    }
    var table := CatalanTable(n);
    r := Count(table[n]);
  }

  /** The values the sample's tests check: 1, 1, 2, 5, 14, 16796, 9694845 and 6564120420. */
  lemma CatalanValues()
    ensures Catalan(0) == 1 && Catalan(1) == 1 && Catalan(2) == 2 && Catalan(3) == 5 && Catalan(4) == 14
    ensures Catalan(10) == 16796 && Catalan(15) == 9694845 && Catalan(20) == 6564120420
  {
    assert Catalan(1) == 1 by {
      assert SumProducts(1, 1) == 0 + 1 * 1;
    }
    CatalanAt2();
    CatalanAt3();
    CatalanAt4();
    CatalanAt5();
    CatalanAt6();
    CatalanAt7();
    CatalanAt8();
    CatalanAt9();
    CatalanAt10();
    CatalanAt11();
    CatalanAt12();
    CatalanAt13();
    CatalanAt14();
    CatalanAt15();
    CatalanAt16();
    CatalanAt17();
    CatalanAt18();
    CatalanAt19();
    CatalanAt20();
  }

  /*
   Evaluation one row at a time: given the rows before it, each row's sum is taken one
   term at a time, so that no step needs more than one product of known values.
   */

  lemma CatalanAt2()
    requires Catalan(0) == 1 && Catalan(1) == 1
    ensures Catalan(2) == 2
  {
    assert SumProducts(2, 1) == 0 + 1 * 1;
    assert SumProducts(2, 2) == 1 + 1 * 1;
  }

  lemma CatalanAt3()
    requires Catalan(0) == 1 && Catalan(1) == 1 && Catalan(2) == 2
    ensures Catalan(3) == 5
  {
    assert SumProducts(3, 1) == 0 + 1 * 2;
    assert SumProducts(3, 2) == 2 + 1 * 1;
    assert SumProducts(3, 3) == 3 + 2 * 1;
  }

  lemma CatalanAt4()
    requires Catalan(0) == 1 && Catalan(1) == 1 && Catalan(2) == 2 && Catalan(3) == 5
    ensures Catalan(4) == 14
  {
    assert SumProducts(4, 1) == 0 + 1 * 5;
    assert SumProducts(4, 2) == 5 + 1 * 2;
    assert SumProducts(4, 3) == 7 + 2 * 1;
    assert SumProducts(4, 4) == 9 + 5 * 1;
  }

  lemma CatalanAt5()
    requires Catalan(0) == 1 && Catalan(1) == 1 && Catalan(2) == 2 && Catalan(3) == 5 && Catalan(4) == 14
    ensures Catalan(5) == 42
  {
    assert SumProducts(5, 1) == 0 + 1 * 14;
    assert SumProducts(5, 2) == 14 + 1 * 5;
    assert SumProducts(5, 3) == 19 + 2 * 2;
    assert SumProducts(5, 4) == 23 + 5 * 1;
    assert SumProducts(5, 5) == 28 + 14 * 1;
  }

  lemma CatalanAt6()
    requires Catalan(0) == 1 && Catalan(1) == 1 && Catalan(2) == 2 && Catalan(3) == 5 && Catalan(4) == 14
    requires Catalan(5) == 42
    ensures Catalan(6) == 132
  {
    assert SumProducts(6, 1) == 0 + 1 * 42;
    assert SumProducts(6, 2) == 42 + 1 * 14;
    assert SumProducts(6, 3) == 56 + 2 * 5;
    assert SumProducts(6, 4) == 66 + 5 * 2;
    assert SumProducts(6, 5) == 76 + 14 * 1;
    assert SumProducts(6, 6) == 90 + 42 * 1;
  }

  lemma CatalanAt7()
    requires Catalan(0) == 1 && Catalan(1) == 1 && Catalan(2) == 2 && Catalan(3) == 5 && Catalan(4) == 14
    requires Catalan(5) == 42 && Catalan(6) == 132
    ensures Catalan(7) == 429
  {
    assert SumProducts(7, 1) == 0 + 1 * 132;
    assert SumProducts(7, 2) == 132 + 1 * 42;
    assert SumProducts(7, 3) == 174 + 2 * 14;
    assert SumProducts(7, 4) == 202 + 5 * 5;
    assert SumProducts(7, 5) == 227 + 14 * 2;
    assert SumProducts(7, 6) == 255 + 42 * 1;
    assert SumProducts(7, 7) == 297 + 132 * 1;
  }

  lemma CatalanAt8()
    requires Catalan(0) == 1 && Catalan(1) == 1 && Catalan(2) == 2 && Catalan(3) == 5 && Catalan(4) == 14
    requires Catalan(5) == 42 && Catalan(6) == 132 && Catalan(7) == 429
    ensures Catalan(8) == 1430
  {
    assert SumProducts(8, 1) == 0 + 1 * 429;
    assert SumProducts(8, 2) == 429 + 1 * 132;
    assert SumProducts(8, 3) == 561 + 2 * 42;
    assert SumProducts(8, 4) == 645 + 5 * 14;
    assert SumProducts(8, 5) == 715 + 14 * 5;
    assert SumProducts(8, 6) == 785 + 42 * 2;
    assert SumProducts(8, 7) == 869 + 132 * 1;
    assert SumProducts(8, 8) == 1001 + 429 * 1;
  }

  lemma CatalanAt9()
    requires Catalan(0) == 1 && Catalan(1) == 1 && Catalan(2) == 2 && Catalan(3) == 5 && Catalan(4) == 14
    requires Catalan(5) == 42 && Catalan(6) == 132 && Catalan(7) == 429 && Catalan(8) == 1430
    ensures Catalan(9) == 4862
  {
    assert SumProducts(9, 1) == 0 + 1 * 1430;
    assert SumProducts(9, 2) == 1430 + 1 * 429;
    assert SumProducts(9, 3) == 1859 + 2 * 132;
    assert SumProducts(9, 4) == 2123 + 5 * 42;
    assert SumProducts(9, 5) == 2333 + 14 * 14;
    assert SumProducts(9, 6) == 2529 + 42 * 5;
    assert SumProducts(9, 7) == 2739 + 132 * 2;
    assert SumProducts(9, 8) == 3003 + 429 * 1;
    assert SumProducts(9, 9) == 3432 + 1430 * 1;
  }

  lemma CatalanAt10()
    requires Catalan(0) == 1 && Catalan(1) == 1 && Catalan(2) == 2 && Catalan(3) == 5 && Catalan(4) == 14
    requires Catalan(5) == 42 && Catalan(6) == 132 && Catalan(7) == 429 && Catalan(8) == 1430 && Catalan(9) == 4862
    ensures Catalan(10) == 16796
  {
    assert SumProducts(10, 1) == 0 + 1 * 4862;
    assert SumProducts(10, 2) == 4862 + 1 * 1430;
    assert SumProducts(10, 3) == 6292 + 2 * 429;
    assert SumProducts(10, 4) == 7150 + 5 * 132;
    assert SumProducts(10, 5) == 7810 + 14 * 42;
    assert SumProducts(10, 6) == 8398 + 42 * 14;
    assert SumProducts(10, 7) == 8986 + 132 * 5;
    assert SumProducts(10, 8) == 9646 + 429 * 2;
    assert SumProducts(10, 9) == 10504 + 1430 * 1;
    assert SumProducts(10, 10) == 11934 + 4862 * 1;
  }

  lemma CatalanAt11()
    requires Catalan(0) == 1 && Catalan(1) == 1 && Catalan(2) == 2 && Catalan(3) == 5 && Catalan(4) == 14
    requires Catalan(5) == 42 && Catalan(6) == 132 && Catalan(7) == 429 && Catalan(8) == 1430 && Catalan(9) == 4862
    requires Catalan(10) == 16796
    ensures Catalan(11) == 58786
  {
    assert SumProducts(11, 1) == 0 + 1 * 16796;
    assert SumProducts(11, 2) == 16796 + 1 * 4862;
    assert SumProducts(11, 3) == 21658 + 2 * 1430;
    assert SumProducts(11, 4) == 24518 + 5 * 429;
    assert SumProducts(11, 5) == 26663 + 14 * 132;
    assert SumProducts(11, 6) == 28511 + 42 * 42;
    assert SumProducts(11, 7) == 30275 + 132 * 14;
    assert SumProducts(11, 8) == 32123 + 429 * 5;
    assert SumProducts(11, 9) == 34268 + 1430 * 2;
    assert SumProducts(11, 10) == 37128 + 4862 * 1;
    assert SumProducts(11, 11) == 41990 + 16796 * 1;
  }

  lemma CatalanAt12()
    requires Catalan(0) == 1 && Catalan(1) == 1 && Catalan(2) == 2 && Catalan(3) == 5 && Catalan(4) == 14
    requires Catalan(5) == 42 && Catalan(6) == 132 && Catalan(7) == 429 && Catalan(8) == 1430 && Catalan(9) == 4862
    requires Catalan(10) == 16796 && Catalan(11) == 58786
    ensures Catalan(12) == 208012
  {
    assert SumProducts(12, 1) == 0 + 1 * 58786;
    assert SumProducts(12, 2) == 58786 + 1 * 16796;
    assert SumProducts(12, 3) == 75582 + 2 * 4862;
    assert SumProducts(12, 4) == 85306 + 5 * 1430;
    assert SumProducts(12, 5) == 92456 + 14 * 429;
    assert SumProducts(12, 6) == 98462 + 42 * 132;
    assert SumProducts(12, 7) == 104006 + 132 * 42;
    assert SumProducts(12, 8) == 109550 + 429 * 14;
    assert SumProducts(12, 9) == 115556 + 1430 * 5;
    assert SumProducts(12, 10) == 122706 + 4862 * 2;
    assert SumProducts(12, 11) == 132430 + 16796 * 1;
    assert SumProducts(12, 12) == 149226 + 58786 * 1;
  }

  lemma CatalanAt13()
    requires Catalan(0) == 1 && Catalan(1) == 1 && Catalan(2) == 2 && Catalan(3) == 5 && Catalan(4) == 14
    requires Catalan(5) == 42 && Catalan(6) == 132 && Catalan(7) == 429 && Catalan(8) == 1430 && Catalan(9) == 4862
    requires Catalan(10) == 16796 && Catalan(11) == 58786 && Catalan(12) == 208012
    ensures Catalan(13) == 742900
  {
    assert SumProducts(13, 1) == 0 + 1 * 208012;
    assert SumProducts(13, 2) == 208012 + 1 * 58786;
    assert SumProducts(13, 3) == 266798 + 2 * 16796;
    assert SumProducts(13, 4) == 300390 + 5 * 4862;
    assert SumProducts(13, 5) == 324700 + 14 * 1430;
    assert SumProducts(13, 6) == 344720 + 42 * 429;
    assert SumProducts(13, 7) == 362738 + 132 * 132;
    assert SumProducts(13, 8) == 380162 + 429 * 42;
    assert SumProducts(13, 9) == 398180 + 1430 * 14;
    assert SumProducts(13, 10) == 418200 + 4862 * 5;
    assert SumProducts(13, 11) == 442510 + 16796 * 2;
    assert SumProducts(13, 12) == 476102 + 58786 * 1;
    assert SumProducts(13, 13) == 534888 + 208012 * 1;
  }

  lemma CatalanAt14()
    requires Catalan(0) == 1 && Catalan(1) == 1 && Catalan(2) == 2 && Catalan(3) == 5 && Catalan(4) == 14
    requires Catalan(5) == 42 && Catalan(6) == 132 && Catalan(7) == 429 && Catalan(8) == 1430 && Catalan(9) == 4862
    requires Catalan(10) == 16796 && Catalan(11) == 58786 && Catalan(12) == 208012 && Catalan(13) == 742900
    ensures Catalan(14) == 2674440
  {
    assert SumProducts(14, 1) == 0 + 1 * 742900;
    assert SumProducts(14, 2) == 742900 + 1 * 208012;
    assert SumProducts(14, 3) == 950912 + 2 * 58786;
    assert SumProducts(14, 4) == 1068484 + 5 * 16796;
    assert SumProducts(14, 5) == 1152464 + 14 * 4862;
    assert SumProducts(14, 6) == 1220532 + 42 * 1430;
    assert SumProducts(14, 7) == 1280592 + 132 * 429;
    assert SumProducts(14, 8) == 1337220 + 429 * 132;
    assert SumProducts(14, 9) == 1393848 + 1430 * 42;
    assert SumProducts(14, 10) == 1453908 + 4862 * 14;
    assert SumProducts(14, 11) == 1521976 + 16796 * 5;
    assert SumProducts(14, 12) == 1605956 + 58786 * 2;
    assert SumProducts(14, 13) == 1723528 + 208012 * 1;
    assert SumProducts(14, 14) == 1931540 + 742900 * 1;
  }

  lemma CatalanAt15()
    requires Catalan(0) == 1 && Catalan(1) == 1 && Catalan(2) == 2 && Catalan(3) == 5 && Catalan(4) == 14
    requires Catalan(5) == 42 && Catalan(6) == 132 && Catalan(7) == 429 && Catalan(8) == 1430 && Catalan(9) == 4862
    requires Catalan(10) == 16796 && Catalan(11) == 58786 && Catalan(12) == 208012 && Catalan(13) == 742900 && Catalan(14) == 2674440
    ensures Catalan(15) == 9694845
  {
    assert SumProducts(15, 1) == 0 + 1 * 2674440;
    assert SumProducts(15, 2) == 2674440 + 1 * 742900;
    assert SumProducts(15, 3) == 3417340 + 2 * 208012;
    assert SumProducts(15, 4) == 3833364 + 5 * 58786;
    assert SumProducts(15, 5) == 4127294 + 14 * 16796;
    assert SumProducts(15, 6) == 4362438 + 42 * 4862;
    assert SumProducts(15, 7) == 4566642 + 132 * 1430;
    assert SumProducts(15, 8) == 4755402 + 429 * 429;
    assert SumProducts(15, 9) == 4939443 + 1430 * 132;
    assert SumProducts(15, 10) == 5128203 + 4862 * 42;
    assert SumProducts(15, 11) == 5332407 + 16796 * 14;
    assert SumProducts(15, 12) == 5567551 + 58786 * 5;
    assert SumProducts(15, 13) == 5861481 + 208012 * 2;
    assert SumProducts(15, 14) == 6277505 + 742900 * 1;
    assert SumProducts(15, 15) == 7020405 + 2674440 * 1;
  }

  lemma CatalanAt16()
    requires Catalan(0) == 1 && Catalan(1) == 1 && Catalan(2) == 2 && Catalan(3) == 5 && Catalan(4) == 14
    requires Catalan(5) == 42 && Catalan(6) == 132 && Catalan(7) == 429 && Catalan(8) == 1430 && Catalan(9) == 4862
    requires Catalan(10) == 16796 && Catalan(11) == 58786 && Catalan(12) == 208012 && Catalan(13) == 742900 && Catalan(14) == 2674440
    requires Catalan(15) == 9694845
    ensures Catalan(16) == 35357670
  {
    assert SumProducts(16, 1) == 0 + 1 * 9694845;
    assert SumProducts(16, 2) == 9694845 + 1 * 2674440;
    assert SumProducts(16, 3) == 12369285 + 2 * 742900;
    assert SumProducts(16, 4) == 13855085 + 5 * 208012;
    assert SumProducts(16, 5) == 14895145 + 14 * 58786;
    assert SumProducts(16, 6) == 15718149 + 42 * 16796;
    assert SumProducts(16, 7) == 16423581 + 132 * 4862;
    assert SumProducts(16, 8) == 17065365 + 429 * 1430;
    assert SumProducts(16, 9) == 17678835 + 1430 * 429;
    assert SumProducts(16, 10) == 18292305 + 4862 * 132;
    assert SumProducts(16, 11) == 18934089 + 16796 * 42;
    assert SumProducts(16, 12) == 19639521 + 58786 * 14;
    assert SumProducts(16, 13) == 20462525 + 208012 * 5;
    assert SumProducts(16, 14) == 21502585 + 742900 * 2;
    assert SumProducts(16, 15) == 22988385 + 2674440 * 1;
    assert SumProducts(16, 16) == 25662825 + 9694845 * 1;
  }

  lemma CatalanAt17()
    requires Catalan(0) == 1 && Catalan(1) == 1 && Catalan(2) == 2 && Catalan(3) == 5 && Catalan(4) == 14
    requires Catalan(5) == 42 && Catalan(6) == 132 && Catalan(7) == 429 && Catalan(8) == 1430 && Catalan(9) == 4862
    requires Catalan(10) == 16796 && Catalan(11) == 58786 && Catalan(12) == 208012 && Catalan(13) == 742900 && Catalan(14) == 2674440
    requires Catalan(15) == 9694845 && Catalan(16) == 35357670
    ensures Catalan(17) == 129644790
  {
    assert SumProducts(17, 1) == 0 + 1 * 35357670;
    assert SumProducts(17, 2) == 35357670 + 1 * 9694845;
    assert SumProducts(17, 3) == 45052515 + 2 * 2674440;
    assert SumProducts(17, 4) == 50401395 + 5 * 742900;
    assert SumProducts(17, 5) == 54115895 + 14 * 208012;
    assert SumProducts(17, 6) == 57028063 + 42 * 58786;
    assert SumProducts(17, 7) == 59497075 + 132 * 16796;
    assert SumProducts(17, 8) == 61714147 + 429 * 4862;
    assert SumProducts(17, 9) == 63799945 + 1430 * 1430;
    assert SumProducts(17, 10) == 65844845 + 4862 * 429;
    assert SumProducts(17, 11) == 67930643 + 16796 * 132;
    assert SumProducts(17, 12) == 70147715 + 58786 * 42;
    assert SumProducts(17, 13) == 72616727 + 208012 * 14;
    assert SumProducts(17, 14) == 75528895 + 742900 * 5;
    assert SumProducts(17, 15) == 79243395 + 2674440 * 2;
    assert SumProducts(17, 16) == 84592275 + 9694845 * 1;
    assert SumProducts(17, 17) == 94287120 + 35357670 * 1;
  }

  lemma CatalanAt18()
    requires Catalan(0) == 1 && Catalan(1) == 1 && Catalan(2) == 2 && Catalan(3) == 5 && Catalan(4) == 14
    requires Catalan(5) == 42 && Catalan(6) == 132 && Catalan(7) == 429 && Catalan(8) == 1430 && Catalan(9) == 4862
    requires Catalan(10) == 16796 && Catalan(11) == 58786 && Catalan(12) == 208012 && Catalan(13) == 742900 && Catalan(14) == 2674440
    requires Catalan(15) == 9694845 && Catalan(16) == 35357670 && Catalan(17) == 129644790
    ensures Catalan(18) == 477638700
  {
    assert SumProducts(18, 1) == 0 + 1 * 129644790;
    assert SumProducts(18, 2) == 129644790 + 1 * 35357670;
    assert SumProducts(18, 3) == 165002460 + 2 * 9694845;
    assert SumProducts(18, 4) == 184392150 + 5 * 2674440;
    assert SumProducts(18, 5) == 197764350 + 14 * 742900;
    assert SumProducts(18, 6) == 208164950 + 42 * 208012;
    assert SumProducts(18, 7) == 216901454 + 132 * 58786;
    assert SumProducts(18, 8) == 224661206 + 429 * 16796;
    assert SumProducts(18, 9) == 231866690 + 1430 * 4862;
    assert SumProducts(18, 10) == 238819350 + 4862 * 1430;
    assert SumProducts(18, 11) == 245772010 + 16796 * 429;
    assert SumProducts(18, 12) == 252977494 + 58786 * 132;
    assert SumProducts(18, 13) == 260737246 + 208012 * 42;
    assert SumProducts(18, 14) == 269473750 + 742900 * 14;
    assert SumProducts(18, 15) == 279874350 + 2674440 * 5;
    assert SumProducts(18, 16) == 293246550 + 9694845 * 2;
    assert SumProducts(18, 17) == 312636240 + 35357670 * 1;
    assert SumProducts(18, 18) == 347993910 + 129644790 * 1;
  }

  lemma CatalanAt19()
    requires Catalan(0) == 1 && Catalan(1) == 1 && Catalan(2) == 2 && Catalan(3) == 5 && Catalan(4) == 14
    requires Catalan(5) == 42 && Catalan(6) == 132 && Catalan(7) == 429 && Catalan(8) == 1430 && Catalan(9) == 4862
    requires Catalan(10) == 16796 && Catalan(11) == 58786 && Catalan(12) == 208012 && Catalan(13) == 742900 && Catalan(14) == 2674440
    requires Catalan(15) == 9694845 && Catalan(16) == 35357670 && Catalan(17) == 129644790 && Catalan(18) == 477638700
    ensures Catalan(19) == 1767263190
  {
    assert SumProducts(19, 1) == 0 + 1 * 477638700;
    assert SumProducts(19, 2) == 477638700 + 1 * 129644790;
    assert SumProducts(19, 3) == 607283490 + 2 * 35357670;
    assert SumProducts(19, 4) == 677998830 + 5 * 9694845;
    assert SumProducts(19, 5) == 726473055 + 14 * 2674440;
    assert SumProducts(19, 6) == 763915215 + 42 * 742900;
    assert SumProducts(19, 7) == 795117015 + 132 * 208012;
    assert SumProducts(19, 8) == 822574599 + 429 * 58786;
    assert SumProducts(19, 9) == 847793793 + 1430 * 16796;
    assert SumProducts(19, 10) == 871812073 + 4862 * 4862;
    assert SumProducts(19, 11) == 895451117 + 16796 * 1430;
    assert SumProducts(19, 12) == 919469397 + 58786 * 429;
    assert SumProducts(19, 13) == 944688591 + 208012 * 132;
    assert SumProducts(19, 14) == 972146175 + 742900 * 42;
    assert SumProducts(19, 15) == 1003347975 + 2674440 * 14;
    assert SumProducts(19, 16) == 1040790135 + 9694845 * 5;
    assert SumProducts(19, 17) == 1089264360 + 35357670 * 2;
    assert SumProducts(19, 18) == 1159979700 + 129644790 * 1;
    assert SumProducts(19, 19) == 1289624490 + 477638700 * 1;
  }

  lemma CatalanAt20()
    requires Catalan(0) == 1 && Catalan(1) == 1 && Catalan(2) == 2 && Catalan(3) == 5 && Catalan(4) == 14
    requires Catalan(5) == 42 && Catalan(6) == 132 && Catalan(7) == 429 && Catalan(8) == 1430 && Catalan(9) == 4862
    requires Catalan(10) == 16796 && Catalan(11) == 58786 && Catalan(12) == 208012 && Catalan(13) == 742900 && Catalan(14) == 2674440
    requires Catalan(15) == 9694845 && Catalan(16) == 35357670 && Catalan(17) == 129644790 && Catalan(18) == 477638700 && Catalan(19) == 1767263190
    ensures Catalan(20) == 6564120420
  {
    assert SumProducts(20, 1) == 0 + 1 * 1767263190;
    assert SumProducts(20, 2) == 1767263190 + 1 * 477638700;
    assert SumProducts(20, 3) == 2244901890 + 2 * 129644790;
    assert SumProducts(20, 4) == 2504191470 + 5 * 35357670;
    assert SumProducts(20, 5) == 2680979820 + 14 * 9694845;
    assert SumProducts(20, 6) == 2816707650 + 42 * 2674440;
    assert SumProducts(20, 7) == 2929034130 + 132 * 742900;
    assert SumProducts(20, 8) == 3027096930 + 429 * 208012;
    assert SumProducts(20, 9) == 3116334078 + 1430 * 58786;
    assert SumProducts(20, 10) == 3200398058 + 4862 * 16796;
    assert SumProducts(20, 11) == 3282060210 + 16796 * 4862;
    assert SumProducts(20, 12) == 3363722362 + 58786 * 1430;
    assert SumProducts(20, 13) == 3447786342 + 208012 * 429;
    assert SumProducts(20, 14) == 3537023490 + 742900 * 132;
    assert SumProducts(20, 15) == 3635086290 + 2674440 * 42;
    assert SumProducts(20, 16) == 3747412770 + 9694845 * 14;
    assert SumProducts(20, 17) == 3883140600 + 35357670 * 5;
    assert SumProducts(20, 18) == 4059928950 + 129644790 * 2;
    assert SumProducts(20, 19) == 4319218530 + 477638700 * 1;
    assert SumProducts(20, 20) == 4796857230 + 1767263190 * 1;
  }

  // ---------------------------------------------------------------------------
  // The shapes the recurrence counts
  // ---------------------------------------------------------------------------

  datatype Tree = Leaf | Node(left: Tree, right: Tree)

  function Size(t: Tree): nat {
    match t
    case Leaf => 0
    case Node(l, r) => 1 + Size(l) + Size(r)
  }

  /** Every tree with a left subtree from `ls` and a right one from `rs`. */
  function Product(ls: seq<Tree>, rs: seq<Tree>): seq<Tree> {
    if |ls| == 0 then []
    else Row(ls[0], rs) + Product(ls[1..], rs)
  }

  /** The trees with left subtree `l` and a right one from `rs`. */
  function Row(l: Tree, rs: seq<Tree>): seq<Tree> {
    seq(|rs|, k requires 0 <= k < |rs| => Node(l, rs[k]))
  }

  /** The shapes with `n` nodes. */
  function Shapes(n: nat): seq<Tree>
    decreases n, 1
  {
    if n == 0 then [Leaf] else ShapesUpTo(n, n)
  }

  /** The shapes with `n` nodes whose root has fewer than `k` nodes on its left. */
  function ShapesUpTo(n: nat, k: nat): seq<Tree>
    requires k <= n
    decreases n, 0, k
  {
    if k == 0 then [] else ShapesUpTo(n, k - 1) + Product(Shapes(k - 1), Shapes(n - k))
  }

  predicate Distinct(s: seq<Tree>) {
    forall i, j :: 0 <= i < j < |s| ==> s[i] != s[j]
  }

  lemma {:induction false} ProductLength(ls: seq<Tree>, rs: seq<Tree>)
    ensures |Product(ls, rs)| == |ls| * |rs|
    decreases |ls|
  {
    if |ls| > 0 {
      ProductLength(ls[1..], rs);
      assert |ls| * |rs| == |rs| + (|ls| - 1) * |rs|;
    }
  }

  lemma {:induction false} ProductMembers(ls: seq<Tree>, rs: seq<Tree>)
    ensures forall t :: t in Product(ls, rs) <==> t.Node? && t.left in ls && t.right in rs
    decreases |ls|
  {
    if |ls| > 0 {
      ProductMembers(ls[1..], rs);
      RowMembers(ls[0], rs);
      forall t
        ensures t in Product(ls, rs) <==> t.Node? && t.left in ls && t.right in rs
      {
        assert t.Node? && t.left in ls ==> t.left == ls[0] || t.left in ls[1..];
      }
    }
  }

  lemma {:induction false} ProductDistinct(ls: seq<Tree>, rs: seq<Tree>)
    requires Distinct(ls) && Distinct(rs)
    ensures Distinct(Product(ls, rs))
    decreases |ls|
  {
    if |ls| > 0 {
      var row, rest := Row(ls[0], rs), Product(ls[1..], rs);
      assert Distinct(ls[1..]);
      ProductDistinct(ls[1..], rs);
      ProductMembers(ls[1..], rs);
      RowMembers(ls[0], rs);
      forall t | t in row ensures t !in rest {
        assert ls[0] !in ls[1..];
      }
      DistinctConcat(row, rest);
    }
  }

  lemma RowMembers(l: Tree, rs: seq<Tree>)
    ensures forall t :: t in Row(l, rs) <==> t.Node? && t.left == l && t.right in rs
  {
    var row := Row(l, rs);
    forall t ensures t in row <==> t.Node? && t.left == l && t.right in rs {
      if t in row {
        var k :| 0 <= k < |row| && row[k] == t;
        assert t.right == rs[k];
      }
      if t.Node? && t.left == l && t.right in rs {
        var k :| 0 <= k < |rs| && rs[k] == t.right;
        assert row[k] == t;
      }
    }
  }

  lemma DistinctConcat(a: seq<Tree>, b: seq<Tree>)
    requires Distinct(a) && Distinct(b)
    requires forall t :: t in a ==> t !in b
    ensures Distinct(a + b)
  {
    forall i, j | 0 <= i < j < |a + b|
      ensures (a + b)[i] != (a + b)[j]
    {
      if j < |a| {
      } else if i >= |a| {
        assert (a + b)[i] == b[i - |a|] && (a + b)[j] == b[j - |a|];
      } else {
        assert (a + b)[i] == a[i] && (a + b)[j] == b[j - |a|];
        assert a[i] in a && b[j - |a|] in b;
      }
    }
  }

  /** There are C(n) shapes with `n` nodes. */
  lemma {:induction false} ShapesCount(n: nat)
    ensures |Shapes(n)| == Catalan(n)
    decreases n, 1
  {
    if n > 0 {
      ShapesUpToCount(n, n);
    }
  }

  lemma {:induction false} ShapesUpToCount(n: nat, k: nat)
    requires k <= n
    ensures |ShapesUpTo(n, k)| == SumProducts(n, k)
    decreases n, 0, k
  {
    if k > 0 {
      ShapesUpToCount(n, k - 1);
      ShapesCount(k - 1);
      ShapesCount(n - k);
      ProductLength(Shapes(k - 1), Shapes(n - k));
    }
  }

  /** `Shapes(n)` holds exactly the trees with `n` nodes. */
  lemma {:induction false} ShapesMembers(n: nat)
    ensures forall t :: t in Shapes(n) <==> Size(t) == n
    decreases n, 1
  {
    if n > 0 {
      ShapesUpToMembers(n, n);
      forall t ensures t in Shapes(n) <==> Size(t) == n {
        assert Size(t) == n ==> t.Node? && Size(t.left) < n;
      }
    }
  }

  lemma {:induction false} ShapesUpToMembers(n: nat, k: nat)
    requires k <= n
    ensures forall t :: t in ShapesUpTo(n, k) <==> Size(t) == n && t.Node? && Size(t.left) < k
    decreases n, 0, k
  {
    if k > 0 {
      ShapesUpToMembers(n, k - 1);
      BlockMembers(n, k);
    }
  }

  /** The `k`-th block of the sum: the shapes with `k - 1` nodes on the left. */
  lemma {:induction false} BlockMembers(n: nat, k: nat)
    requires 0 < k <= n
    ensures forall t :: t in Product(Shapes(k - 1), Shapes(n - k)) <==> Size(t) == n && t.Node? && Size(t.left) == k - 1
    decreases n, 0, k - 1
  {
    ShapesMembers(k - 1);
    ShapesMembers(n - k);
    ProductMembers(Shapes(k - 1), Shapes(n - k));
  }

  /** `Shapes(n)` lists no shape twice. */
  lemma {:induction false} ShapesDistinct(n: nat)
    ensures Distinct(Shapes(n))
    decreases n, 1
  {
    if n > 0 {
      ShapesUpToDistinct(n, n);
    }
  }

  lemma {:induction false} ShapesUpToDistinct(n: nat, k: nat)
    requires k <= n
    ensures Distinct(ShapesUpTo(n, k))
    decreases n, 0, k
  {
    if k > 0 {
      var before, block := ShapesUpTo(n, k - 1), Product(Shapes(k - 1), Shapes(n - k));
      ShapesUpToDistinct(n, k - 1);
      ShapesDistinct(k - 1);
      ShapesDistinct(n - k);
      ProductDistinct(Shapes(k - 1), Shapes(n - k));
      ShapesUpToMembers(n, k - 1);
      BlockMembers(n, k);
      forall t | t in before
        ensures t !in block
      {
        assert Size(t.left) < k - 1;
      }
      DistinctConcat(before, block);
    }
  }

  /** The table's value counts the search trees: C(n) is the number of shapes with n nodes. */
  lemma CatalanCountsShapes(n: nat)
    ensures Catalan(n) == |Shapes(n)|
    ensures forall t :: t in Shapes(n) <==> Size(t) == n
    ensures Distinct(Shapes(n))
  {
    ShapesCount(n);
    ShapesMembers(n);
    ShapesDistinct(n);
  }
}

=== FILE: workflow.dfy ===
/**
 The orchestration in workflow.py: `initiate_workflow` checks the request, seeds the
 transcript, runs the stage loop over a mutable pipeline of agent roles, extracts file
 blocks from every message into the workspace, runs the tests there and maps faults to an
 error result; `run_workflow` does this with a fresh orchestrator whose limit is 5.
 The agents' replies, the setup, the filesystem and the test run are inputs.
 */
module Workflow {
  import opened Wrappers
  import opened Text
  import opened Extractor
  import opened TestExecutor

  // ---------------------------------------------------------------------------
  // Stages and the transcript
  // ---------------------------------------------------------------------------

  /** The roles the stage loop can run. */
  datatype Stage = Requirements | Coding | Review | Documentation | QA | Deployment | UI

  /** The role's key in the agents dictionary, also passed to the progress callback. */
  function AgentName(s: Stage): string {
    match s
    case Requirements => "Requirements_Agent"
    case Coding => "coding_agent"
    case Review => "review_agent"
    case Documentation => "Documentation_Agent"
    case QA => "QA_Agent"
    case Deployment => "Deployment_agent"
    case UI => "UI_agent"
  }

  const DefaultPipeline: seq<Stage> := [Requirements, Coding, Review, Documentation, QA, Deployment, UI]

  /** The pipeline after one `coding_agent` has been inserted just after `review_agent`. */
  const RetryPipeline: seq<Stage> := [Requirements, Coding, Review, Coding, Documentation, QA, Deployment, UI]

  /** Position of `review_agent` in either pipeline. */
  const ReviewIndex: nat := 2

  datatype Role = System | Assistant

  datatype Message = Message(role: Role, content: string)

  /** The Python exceptions the error mapping tells apart; anything else is `OtherError`. */
  datatype Fault =
    | KeyboardInterrupt
    | TimeoutError(message: string)
    | ValueError(message: string)
    | ConnectionError(message: string)
    | OtherError(typeName: string, message: string)

  /** What `generate_reply` gave: a text, nothing (`None` or `""`), or an exception. */
  datatype Reply = Said(text: string) | NoReply | Raises(fault: Fault)

  /** The reply of an agent to the transcript so far. */
  type Agents = (Stage, seq<Message>) -> Reply

  datatype Progress = Running | Completed

  /** One call of the progress callback. */
  datatype Event = Event(stage: Stage, progress: Progress)

  // Some long literals are written as concatenations of pieces; each constant is the
  // whole text.

  const Fallback: string := "I will now generate the required " + "files as instructed."
  const FixMarker: string := "FIX_REQUIRED"
  const RunawayLimit: nat := 40
  const RunawayFault: Fault := OtherError("RuntimeError", "Workflow runaway detected " + "— terminating safely.")
  const EmptyRequestError: string := "User request cannot be empty"
  const Seed: string :=
    "Controller_agent: Requirements_Agent " + "must generate requirements.md " + "based on the user request."

  /** The `raise` for an agent whose reply, after the fallback, is still blank. */
  function EmptyOutputFault(s: Stage): Fault {
    OtherError("RuntimeError", AgentName(s) + " produced empty output")
  }

  // ---------------------------------------------------------------------------
  // The system message
  // ---------------------------------------------------------------------------

  /** The indentation the triple-quoted system prompt keeps on its non-empty lines. */
  const Indent: string := "            "

  /** The lines of the system prompt before the request itself. */
  const PromptHead: seq<string> := [
    "",
    Indent + "You are Controller_agent in a " + "multi-agent software factory.",
    "",
    Indent + "Rules:",
    Indent + "- Always produce files using:",
    Indent + "===BEGIN_FILE:filename===",
    Indent + "<content>",
    Indent + "===END_FILE===",
    "",
    Indent + "- Never respond empty.",
    Indent + "- Instruct next agent clearly.",
    "",
    Indent + "User Request:"
  ]

  /**
   The system message: the fixed head, then the request verbatim, then a newline and the
   closing indentation.
   */
  function SystemPrompt(request: string): (r: string)
    ensures |r| == |PromptBefore()| + |request| + 1 + |Indent|
    ensures r[..|PromptBefore()|] == PromptBefore() && OccursAt(r, request, |PromptBefore()|)
    ensures r[|PromptBefore()| + |request|] == '\n'
  {
    PromptBefore() + request + "\n" + Indent
  }

  /**
   The two messages every transcript starts with: the system prompt, which carries an end
   marker exactly when the request does, and the seed, which carries none; so the opening
   yields no file block unless the request itself has one.
   */
  function Opening(request: string): (r: seq<Message>)
    ensures |r| == 2 && r[0].role == System && r[1].role == Assistant
    ensures Contains(r[0].content, EndMarker) <==> Contains(request, EndMarker)
    ensures !Contains(r[1].content, EndMarker)
    ensures !Contains(request, EndMarker) ==> MessageBlocks(Contents(r)) == []
  {
    var r := [Message(System, SystemPrompt(request)), Message(Assistant, Seed)];
    SystemPromptMarker(request);
    SeedHasNoMarker();
    assert Contents(r) == [SystemPrompt(request), Seed];
    NoMarkerNoBlocks(Contents(r));
    r
  }

  // ---------------------------------------------------------------------------
  // One pass of the stage loop
  // ---------------------------------------------------------------------------

  lemma FallbackNotBlank()
    ensures !IsBlank(Fallback)
  {
    BlankIffAllSpace(Fallback);
    assert Fallback[0] == 'I';
  }

  /** The text a stage appends for a reply that did not raise: never blank. */
  function ReplyText(reply: Reply): (text: string)
    requires !reply.Raises?
    ensures !IsBlank(text)
    ensures reply.Said? && !IsBlank(reply.text) ==> text == reply.text
    ensures !(reply.Said? && !IsBlank(reply.text)) ==> text == Fallback
  {
    FallbackNotBlank();
    if reply.Said? && !IsBlank(reply.text) then reply.text else Fallback
  }

  /** How one pass ends: with an exception and the progress reported before it, or with a text to append. */
  datatype StepOutcome = Halted(fault: Fault, reported: seq<Progress>) | Replied(text: string)

  /**
   The body of the loop at index `i` up to the append: the runaway guard, the reply, the
   fallback, and the check for empty output.
   */
  function Step(i: nat, stage: Stage, reply: Reply): (r: StepOutcome)
    ensures i <= RunawayLimit ==> (r.Halted? <==> reply.Raises?)
    ensures i <= RunawayLimit && r.Halted? ==> reply.Raises? && r.fault == reply.fault && r.reported == [Running]
    ensures r.Replied? ==> !reply.Raises? && r.text == ReplyText(reply)
  {
    if i > RunawayLimit then Halted(RunawayFault, [])
    else
      match reply
      case Raises(f) => Halted(f, [Running])
      case _ =>
        var text := ReplyText(reply);
        if IsBlank(text) then Halted(EmptyOutputFault(stage), [Running, Completed]) else Replied(text)
  }

  /** The events of one stage that reported `progress` in turn. */
  function Reported(stage: Stage, progress: seq<Progress>): seq<Event> {
    seq(|progress|, k requires 0 <= k < |progress| => Event(stage, progress[k]))
  }

  /** The progress callbacks of stages that completed: `running` then `completed` for each. */
  function Trace(stages: seq<Stage>): seq<Event> {
    if |stages| == 0 then []
    else Trace(stages[..|stages| - 1])
         + [Event(stages[|stages| - 1], Running), Event(stages[|stages| - 1], Completed)]
  }

  /** Stage `k` appended its reply to the transcript it was shown. */
  predicate Answered(agents: Agents, pipeline: seq<Stage>, messages: seq<Message>, base: nat, k: nat)
    requires k < |pipeline| && base + k < |messages|
  {
    var reply := agents(pipeline[k], messages[..base + k]);
    !reply.Raises? && messages[base + k] == Message(Assistant, ReplyText(reply))
  }

  /** The first `n` stages all answered. */
  predicate AnsweredUpTo(agents: Agents, pipeline: seq<Stage>, messages: seq<Message>, base: nat, n: nat)
    requires n <= |pipeline| && base + n <= |messages|
  {
    forall k :: 0 <= k < n ==> Answered(agents, pipeline, messages, base, k)
  }

  /** The review stage has run and its reply asks for a fix. */
  predicate FixRequested(messages: seq<Message>, base: nat, done: nat)
    requires base + done <= |messages|
  {
    done > ReviewIndex && Contains(messages[base + ReviewIndex].content, FixMarker)
  }

  /** The state of the loop when it stops. */
  datatype StageRun = StageRun(
    pipeline: seq<Stage>, done: nat, messages: seq<Message>, events: seq<Event>,
    reviewCount: int, fault: Option<Fault>)

  lemma ReviewOnlyAtTwo(pipeline: seq<Stage>, i: nat)
    requires pipeline == DefaultPipeline || pipeline == RetryPipeline
    requires i < |pipeline|
    ensures pipeline[i] == Review <==> i == ReviewIndex
  {
  }

  /** The trace of one more completed stage. */
  lemma TraceStep(pipeline: seq<Stage>, i: nat)
    requires i < |pipeline|
    ensures Trace(pipeline[..i + 1]) == Trace(pipeline[..i]) + [Event(pipeline[i], Running), Event(pipeline[i], Completed)]
  {
    assert pipeline[..i + 1][..i] == pipeline[..i];
  }

  /** Appending stage `i`'s reply keeps the earlier stages answered and answers stage `i`. */
  lemma AppendAnswered(agents: Agents, pipeline: seq<Stage>, messages: seq<Message>, base: nat, i: nat, text: string)
    requires i < |pipeline| && |messages| == base + i
    requires AnsweredUpTo(agents, pipeline, messages, base, i)
    requires !agents(pipeline[i], messages).Raises? && text == ReplyText(agents(pipeline[i], messages))
    ensures AnsweredUpTo(agents, pipeline, messages + [Message(Assistant, text)], base, i + 1)
  {
    var m := Message(Assistant, text);
    AnsweredUpToKept(agents, pipeline, messages, base, i, m);
    AnsweredNow(agents, pipeline, messages, base, i, text);
    AnsweredUpToExtend(agents, pipeline, messages + [m], base, i);
  }

  /** Appending a message keeps the stages answered that were. */
  lemma AnsweredUpToKept(agents: Agents, pipeline: seq<Stage>, messages: seq<Message>, base: nat, n: nat, m: Message)
    requires n <= |pipeline| && base + n <= |messages|
    requires AnsweredUpTo(agents, pipeline, messages, base, n)
    ensures AnsweredUpTo(agents, pipeline, messages + [m], base, n)
  {
    forall k | 0 <= k < n ensures Answered(agents, pipeline, messages + [m], base, k) {
      AnsweredKept(agents, pipeline, messages, base, k, m);
    }
  }

  /** One more answered stage extends the answered run. */
  lemma AnsweredUpToExtend(agents: Agents, pipeline: seq<Stage>, messages: seq<Message>, base: nat, n: nat)
    requires n < |pipeline| && base + n < |messages|
    requires AnsweredUpTo(agents, pipeline, messages, base, n) && Answered(agents, pipeline, messages, base, n)
    ensures AnsweredUpTo(agents, pipeline, messages, base, n + 1)
  {
  }

  /** Appending stage `i`'s reply answers stage `i`. */
  lemma AnsweredNow(agents: Agents, pipeline: seq<Stage>, messages: seq<Message>, base: nat, i: nat, text: string)
    requires i < |pipeline| && |messages| == base + i
    requires !agents(pipeline[i], messages).Raises? && text == ReplyText(agents(pipeline[i], messages))
    ensures Answered(agents, pipeline, messages + [Message(Assistant, text)], base, i)
  {
    PrefixKept(messages, Message(Assistant, text), base + i);
    assert messages[..base + i] == messages;
  }

  /** Appending a message keeps every prefix of the transcript. */
  lemma PrefixKept(messages: seq<Message>, m: Message, n: nat)
    requires n <= |messages|
    ensures (messages + [m])[..n] == messages[..n]
  {
  }

  /** Appending a message does not change whether an earlier stage answered. */
  lemma AnsweredKept(agents: Agents, pipeline: seq<Stage>, messages: seq<Message>, base: nat, k: nat, m: Message)
    requires k < |pipeline| && base + k < |messages|
    requires Answered(agents, pipeline, messages, base, k)
    ensures Answered(agents, pipeline, messages + [m], base, k)
  {
    PrefixKept(messages, m, base + k);
    assert (messages + [m])[base + k] == messages[base + k];
  }

  /** Whether the review asked for a fix, one message later. */
  lemma FixAfterAppend(messages: seq<Message>, base: nat, i: nat, m: Message)
    requires |messages| == base + i
    ensures FixRequested(messages + [m], base, i + 1)
            == (FixRequested(messages, base, i) || (i == ReviewIndex && Contains(m.content, FixMarker)))
  {
    if i > ReviewIndex {
      assert (messages + [m])[base + ReviewIndex] == messages[base + ReviewIndex];
    }
  }

  /** Inserting `coding_agent` after the review turns the default pipeline into the retry one without touching what ran. */
  lemma RetryAfterReview(agents: Agents, messages: seq<Message>, base: nat)
    requires |messages| == base + ReviewIndex + 1
    requires AnsweredUpTo(agents, DefaultPipeline, messages, base, ReviewIndex + 1)
    ensures DefaultPipeline[..ReviewIndex + 1] + [Coding] + DefaultPipeline[ReviewIndex + 1..] == RetryPipeline
    ensures AnsweredUpTo(agents, RetryPipeline, messages, base, ReviewIndex + 1)
    ensures RetryPipeline[..ReviewIndex + 1] == DefaultPipeline[..ReviewIndex + 1]
  {
    forall k | 0 <= k < ReviewIndex + 1
      ensures Answered(agents, RetryPipeline, messages, base, k)
    {
      assert RetryPipeline[k] == DefaultPipeline[k];
      assert Answered(agents, DefaultPipeline, messages, base, k);
    }
    assert DefaultPipeline[..ReviewIndex + 1] == [Requirements, Coding, Review];
    assert DefaultPipeline[ReviewIndex + 1..] == [Documentation, QA, Deployment, UI];
  }

  /** The loop invariant of the stage loop once `i` stages have completed. */
  predicate Consistent(agents: Agents, base: nat, count0: int, maxReview: int,
                       pipeline: seq<Stage>, i: nat, messages: seq<Message>, count: int, events: seq<Event>)
  {
    && (pipeline == DefaultPipeline || pipeline == RetryPipeline)
    && i <= |pipeline|
    && |messages| == base + i
    && AnsweredUpTo(agents, pipeline, messages, base, i)
    && (pipeline == RetryPipeline <==> FixRequested(messages, base, i) && count0 + 1 < maxReview)
    && count == count0 + (if FixRequested(messages, base, i) then 1 else 0)
    && events == Trace(pipeline[..i])
  }

  /** Stage `i` asks for a retry: it is the review and its reply holds the fix marker. */
  predicate AsksForFix(stage: Stage, text: string) {
    stage == Review && Contains(text, FixMarker)
  }

  /** One completed pass of the loop keeps the invariant. */
  lemma Advance(agents: Agents, base: nat, count0: int, maxReview: int,
                pipeline: seq<Stage>, i: nat, messages: seq<Message>, count: int, events: seq<Event>,
                text: string, nextPipeline: seq<Stage>, nextCount: int)
    requires Consistent(agents, base, count0, maxReview, pipeline, i, messages, count, events)
    requires i < |pipeline|
    requires !agents(pipeline[i], messages).Raises? && text == ReplyText(agents(pipeline[i], messages))
    requires nextCount == if AsksForFix(pipeline[i], text) then count + 1 else count
    requires nextPipeline == if AsksForFix(pipeline[i], text) && nextCount < maxReview
                             then pipeline[..i + 1] + [Coding] + pipeline[i + 1..] else pipeline
    ensures Consistent(agents, base, count0, maxReview, nextPipeline, i + 1, messages + [Message(Assistant, text)],
                       nextCount, events + [Event(pipeline[i], Running), Event(pipeline[i], Completed)])
    ensures (messages + [Message(Assistant, text)])[..base] == messages[..base]
  {
    var reply := Message(Assistant, text);
    var next := messages + [reply];
    TraceStep(pipeline, i);
    AppendAnswered(agents, pipeline, messages, base, i, text);
    PrefixKept(messages, reply, base);
    FixAfterAppend(messages, base, i, reply);
    ReviewOnlyAtTwo(pipeline, i);
    if AsksForFix(pipeline[i], text) && nextCount < maxReview {
      RetryAfterReview(agents, next, base);
    }
  }

  /**
   What the stage loop leaves behind: the default pipeline or the one with a single
   retry; the stages before `done` all answered, appended in order after `opening`; the
   retry present exactly when the review asked for a fix and the limit allowed it; the
   counter raised once per fix request; and, if the loop stopped early, the exception of
   the stage at `done`, whose `running` event was the last one reported.
   */
  predicate Stopped(agents: Agents, opening: seq<Message>, count0: int, maxReview: int, r: StageRun) {
    && (r.pipeline == DefaultPipeline || r.pipeline == RetryPipeline)
    && r.done <= |r.pipeline|
    && (r.fault.None? <==> r.done == |r.pipeline|)
    && |r.messages| == |opening| + r.done && r.messages[..|opening|] == opening
    && AnsweredUpTo(agents, r.pipeline, r.messages, |opening|, r.done)
    && (r.pipeline == RetryPipeline <==> FixRequested(r.messages, |opening|, r.done) && count0 + 1 < maxReview)
    && r.reviewCount == count0 + (if FixRequested(r.messages, |opening|, r.done) then 1 else 0)
    && (r.fault.Some? ==> agents(r.pipeline[r.done], r.messages) == Raises(r.fault.value))
    && r.events == Trace(r.pipeline[..r.done]) + (if r.fault.Some? then [Event(r.pipeline[r.done], Running)] else [])
  }

  /** A loop that ends because stage `i` raised. */
  lemma HaltedStops(agents: Agents, opening: seq<Message>, count0: int, maxReview: int,
                    pipeline: seq<Stage>, i: nat, messages: seq<Message>, count: int, events: seq<Event>)
    requires Consistent(agents, |opening|, count0, maxReview, pipeline, i, messages, count, events)
    requires messages[..|opening|] == opening
    requires i < |pipeline| && agents(pipeline[i], messages).Raises?
    ensures Stopped(agents, opening, count0, maxReview,
                    StageRun(pipeline, i, messages, events + [Event(pipeline[i], Running)], count,
                             Some(agents(pipeline[i], messages).fault)))
  {
  }

  /** A loop that ends because every stage ran. */
  lemma FinishedStops(agents: Agents, opening: seq<Message>, count0: int, maxReview: int,
                      pipeline: seq<Stage>, i: nat, messages: seq<Message>, count: int, events: seq<Event>)
    requires Consistent(agents, |opening|, count0, maxReview, pipeline, i, messages, count, events)
    requires messages[..|opening|] == opening
    requires i == |pipeline|
    ensures Stopped(agents, opening, count0, maxReview, StageRun(pipeline, i, messages, events, count, None))
  {
  }

  /**
   The stage loop from stage `i` on, given the pipeline, transcript, counter and events
   reached so far. Only the runaway guard bounds it in general: past stage 40 `Step` halts.
   */
  function Loop(agents: Agents, maxReview: int, pipeline: seq<Stage>, i: nat,
                messages: seq<Message>, count: int, events: seq<Event>): (r: StageRun)
    requires i <= |pipeline|
    decreases RunawayLimit + 1 - i
    ensures i <= r.done <= |r.pipeline| && (r.fault.None? <==> r.done == |r.pipeline|)
    ensures |r.messages| == |messages| + (r.done - i)
  {
    if i == |pipeline| then StageRun(pipeline, i, messages, events, count, None)
    else
      var stage := pipeline[i];
      match Step(i, stage, agents(stage, messages))
      case Halted(fault, reported) =>
        StageRun(pipeline, i, messages, events + Reported(stage, reported), count, Some(fault))
      case Replied(text) =>
        var nextCount := if AsksForFix(stage, text) then count + 1 else count;
        var nextPipeline := if AsksForFix(stage, text) && nextCount < maxReview
                            then pipeline[..i + 1] + [Coding] + pipeline[i + 1..] else pipeline;
        Loop(agents, maxReview, nextPipeline, i + 1, messages + [Message(Assistant, text)], nextCount,
             events + [Event(stage, Running), Event(stage, Completed)])
  }

  /** Within the runaway limit, a stage that raises ends the loop with its exception. */
  lemma LoopHalts(agents: Agents, maxReview: int, pipeline: seq<Stage>, i: nat,
                  messages: seq<Message>, count: int, events: seq<Event>)
    requires i < |pipeline| && i <= RunawayLimit && agents(pipeline[i], messages).Raises?
    ensures Loop(agents, maxReview, pipeline, i, messages, count, events)
            == StageRun(pipeline, i, messages, events + [Event(pipeline[i], Running)], count,
                        Some(agents(pipeline[i], messages).fault))
  {
  }

  /** Within the runaway limit, a stage that answers appends its reply and the loop goes on. */
  lemma LoopAdvances(agents: Agents, maxReview: int, pipeline: seq<Stage>, i: nat,
                     messages: seq<Message>, count: int, events: seq<Event>)
    requires i < |pipeline| && i <= RunawayLimit && !agents(pipeline[i], messages).Raises?
    ensures var stage := pipeline[i];
            var text := ReplyText(agents(stage, messages));
            var nextCount := if AsksForFix(stage, text) then count + 1 else count;
            var nextPipeline := if AsksForFix(stage, text) && nextCount < maxReview
                                then pipeline[..i + 1] + [Coding] + pipeline[i + 1..] else pipeline;
            Loop(agents, maxReview, pipeline, i, messages, count, events)
            == Loop(agents, maxReview, nextPipeline, i + 1, messages + [Message(Assistant, text)], nextCount,
                    events + [Event(stage, Running), Event(stage, Completed)])
  {
  }

  /** From any state that keeps the loop invariant, the loop stops in a state `Stopped` describes. */
  lemma {:induction false} LoopStops(agents: Agents, opening: seq<Message>, count0: int, maxReview: int,
                                     pipeline: seq<Stage>, i: nat, messages: seq<Message>, count: int, events: seq<Event>,
                                     r: StageRun)
    requires Consistent(agents, |opening|, count0, maxReview, pipeline, i, messages, count, events)
    requires messages[..|opening|] == opening
    requires r == Loop(agents, maxReview, pipeline, i, messages, count, events)
    ensures Stopped(agents, opening, count0, maxReview, r)
    decreases |RetryPipeline| - i
  {
    if i == |pipeline| {
      FinishedStops(agents, opening, count0, maxReview, pipeline, i, messages, count, events);
    } else if agents(pipeline[i], messages).Raises? {
      LoopHalts(agents, maxReview, pipeline, i, messages, count, events);
      HaltedStops(agents, opening, count0, maxReview, pipeline, i, messages, count, events);
    } else {
      var stage := pipeline[i];
      var text := ReplyText(agents(stage, messages));
      var nextCount := if AsksForFix(stage, text) then count + 1 else count;
      var nextPipeline := if AsksForFix(stage, text) && nextCount < maxReview
                          then pipeline[..i + 1] + [Coding] + pipeline[i + 1..] else pipeline;
      StepKeeps(agents, opening, count0, maxReview, pipeline, i, messages, count, events, text, nextPipeline, nextCount);
      LoopStops(agents, opening, count0, maxReview, nextPipeline, i + 1, messages + [Message(Assistant, text)],
                nextCount, events + [Event(stage, Running), Event(stage, Completed)], r);
    }
  }

  /** A stage that answers leads to a state that keeps the invariant, from which the loop goes on. */
  lemma StepKeeps(agents: Agents, opening: seq<Message>, count0: int, maxReview: int,
                  pipeline: seq<Stage>, i: nat, messages: seq<Message>, count: int, events: seq<Event>,
                  text: string, nextPipeline: seq<Stage>, nextCount: int)
    requires Consistent(agents, |opening|, count0, maxReview, pipeline, i, messages, count, events)
    requires messages[..|opening|] == opening
    requires i < |pipeline| && !agents(pipeline[i], messages).Raises?
    requires text == ReplyText(agents(pipeline[i], messages))
    requires nextCount == if AsksForFix(pipeline[i], text) then count + 1 else count
    requires nextPipeline == if AsksForFix(pipeline[i], text) && nextCount < maxReview
                             then pipeline[..i + 1] + [Coding] + pipeline[i + 1..] else pipeline
    ensures var next := messages + [Message(Assistant, text)];
            var nextEvents := events + [Event(pipeline[i], Running), Event(pipeline[i], Completed)];
            && Consistent(agents, |opening|, count0, maxReview, nextPipeline, i + 1, next, nextCount, nextEvents)
            && next[..|opening|] == opening
            && Loop(agents, maxReview, pipeline, i, messages, count, events)
               == Loop(agents, maxReview, nextPipeline, i + 1, next, nextCount, nextEvents)
  {
    LoopAdvances(agents, maxReview, pipeline, i, messages, count, events);
    Advance(agents, |opening|, count0, maxReview, pipeline, i, messages, count, events, text, nextPipeline, nextCount);
  }

  /**
   The stage loop of `initiate_workflow`, from the default pipeline and an empty event list.
   `review_agent` stands only at index 2 and only `coding_agent` is ever inserted, so the
   pipeline is the default one or the one with a single retry, at most eight stages run,
   and the runaway guard never fires.
   */
  function RunStages(agents: Agents, opening: seq<Message>, count0: int, maxReview: int): (r: StageRun)
    ensures Stopped(agents, opening, count0, maxReview, r)
  {
    var r := Loop(agents, maxReview, DefaultPipeline, 0, opening, count0, []);
    assert opening[..|opening|] == opening;
    LoopStops(agents, opening, count0, maxReview, DefaultPipeline, 0, opening, count0, [], r);
    r
  }

  // ---------------------------------------------------------------------------
  // The whole workflow
  // ---------------------------------------------------------------------------

  /**
   The `error` text for each kind of fault: never empty, and it keeps the exception's
   message, at the end or, for a connection error, before the advice.
   */
  function ErrorText(f: Fault): (t: string)
    ensures |t| > 0
    ensures !f.KeyboardInterrupt? && !f.ConnectionError? ==>
              |f.message| <= |t| && t[|t| - |f.message|..] == f.message
    ensures f.ConnectionError? ==> OccursAt(t, f.message, 18)
  {
    match f
    case KeyboardInterrupt => "Workflow was interrupted by user"
    case TimeoutError(m) => "Workflow timed out: " + m
    case ValueError(m) => "Configuration error: " + m
    case ConnectionError(m) => "Connection error: " + m + ". Please check your internet connection."
    case OtherError(t, m) => t + ": " + m
  }

  /** The orchestrator's state across calls: its limit and its review counter, which a call never resets. */
  datatype Orchestrator = Orchestrator(maxReviewIterations: int, reviewIterationCount: int)

  /**
   What running the tests does: raise an `Exception`, list the workspace and run each file,
   or be interrupted by the user, which `except Exception` does not catch.
   */
  datatype TestEnv =
    | TestsRaise(message: string)
    | TestsRun(listing: map<string, string> -> seq<string>, run: Runner)
    | TestsInterrupted

  /** Everything outside the orchestrator the workflow depends on. */
  datatype Environment = Environment(
    setup: Option<Fault>,            // loading the model configuration and wiring the chat
    agents: Agents,
    workspaceFault: Option<Fault>,   // creating the workspace directory
    workspace: map<string, string>,  // the files already there
    canWrite: Writer,
    tests: TestEnv)

  datatype WorkflowResult =
    | Success(totalMessages: nat, reviewIterations: int, filesExtracted: nat,
              messages: seq<Message>, testResults: Report)
    | Failure(error: string, reviewIterations: int)

  function Contents(messages: seq<Message>): seq<string> {
    seq(|messages|, k requires 0 <= k < |messages| => messages[k].content)
  }

  /**
   The report the test phase gives on `workspace`: the degraded report when it raised,
   otherwise one unittest result per discovered file, in order, rolled up.
   */
  predicate TestedIn(report: Report, tests: TestEnv, workspace: map<string, string>) {
    match tests
    case TestsRaise(message) => report == ErrorReport(message)
    case TestsRun(listing, run) =>
      RunsEach(report.testResults, FindTestFiles(Some(listing(workspace))), run) && report == Rollup(report.testResults)
    case TestsInterrupted => false
  }

  /** The test phase: a raise is absorbed into an `error` report, an interrupt gives no report. */
  method RunTests(tests: TestEnv, workspace: map<string, string>) returns (report: Option<Report>)
    ensures report.None? <==> tests.TestsInterrupted?
    ensures report.Some? ==> TestedIn(report.value, tests, workspace)
  {
    match tests
    case TestsRaise(message) =>
      report := Some(ErrorReport(message));
    case TestsRun(listing, run) =>
      var all := ExecuteAllTests(Some(listing(workspace)), run);
      report := Some(all);
    case TestsInterrupted =>
      report := None;
  }

  /** `initiate_workflow`, returning the result and the orchestrator's counter afterwards. */
  method InitiateWorkflow(orch: Orchestrator, request: Option<string>, env: Environment)
    returns (r: WorkflowResult, reviewCount: int)
    ensures request.None? || IsBlank(request.value) ==>
              r == Failure(EmptyRequestError, 0) && reviewCount == orch.reviewIterationCount
    ensures request.Some? && !IsBlank(request.value) && env.setup.Some? ==>
              r == Failure(ErrorText(env.setup.value), orch.reviewIterationCount)
    ensures reviewCount == orch.reviewIterationCount || reviewCount == orch.reviewIterationCount + 1
    ensures r.Failure? && request.Some? && !IsBlank(request.value) ==> r.reviewIterations == reviewCount
    ensures r.Success? ==>
              && request.Some? && !IsBlank(request.value)
              && env.setup.None? && env.workspaceFault.None?
              && r.totalMessages == |r.messages|
              && (|r.messages| == |Opening(request.value)| + |DefaultPipeline|
                  || |r.messages| == |Opening(request.value)| + |RetryPipeline|)
              && r.messages[..2] == Opening(request.value)
              && (forall k :: 2 <= k < |r.messages| ==> r.messages[k].role == Assistant && !IsBlank(r.messages[k].content))
              && r.reviewIterations == reviewCount
              && (reviewCount == orch.reviewIterationCount + 1 <==> Contains(r.messages[2 + ReviewIndex].content, FixMarker))
              && (|r.messages| == 2 + |RetryPipeline| <==>
                    Contains(r.messages[2 + ReviewIndex].content, FixMarker)
                    && orch.reviewIterationCount + 1 < orch.maxReviewIterations)
              && r.filesExtracted == |Writes(Stripped(MessageBlocks(Contents(r.messages))), env.canWrite)|
    ensures request.Some? && !IsBlank(request.value) && env.setup.None? ==>
              var run := RunStages(env.agents, Opening(request.value), orch.reviewIterationCount, orch.maxReviewIterations);
              && reviewCount == run.reviewCount
              && (r.Success? <==> run.fault.None? && env.workspaceFault.None? && !env.tests.TestsInterrupted?)
              && (run.fault.Some? ==> r == Failure(ErrorText(run.fault.value), run.reviewCount))
              && (run.fault.None? && env.workspaceFault.Some? ==>
                    r == Failure(ErrorText(env.workspaceFault.value), run.reviewCount))
              && (run.fault.None? && env.workspaceFault.None? && env.tests.TestsInterrupted? ==>
                    r == Failure(ErrorText(KeyboardInterrupt), run.reviewCount))
              && (r.Success? ==> r.messages == run.messages)
    ensures r.Success? ==>
              var extraction := ExtractFiles(env.workspace, Contents(r.messages), env.canWrite);
              && r.filesExtracted == extraction.written
              && TestedIn(r.testResults, env.tests, extraction.workspace)
  {
    reviewCount := orch.reviewIterationCount;
    if request.None? || IsBlank(request.value) {
      return Failure(EmptyRequestError, 0), reviewCount;
    }
    if env.setup.Some? {
      return Failure(ErrorText(env.setup.value), reviewCount), reviewCount;
    }
    var opening := Opening(request.value);
    var run := RunStages(env.agents, opening, reviewCount, orch.maxReviewIterations);
    reviewCount := run.reviewCount;
    if run.fault.Some? {
      return Failure(ErrorText(run.fault.value), reviewCount), reviewCount;
    }
    if env.workspaceFault.Some? {
      return Failure(ErrorText(env.workspaceFault.value), reviewCount), reviewCount;
    }
    var messages := run.messages;
    forall k | 2 <= k < |messages|
      ensures messages[k].role == Assistant && !IsBlank(messages[k].content)
    {
      assert Answered(env.agents, run.pipeline, messages, 2, k - 2);
    }
    var extraction := ExtractFiles(env.workspace, Contents(messages), env.canWrite);
    var report := RunTests(env.tests, extraction.workspace);
    if report.None? {
      return Failure(ErrorText(KeyboardInterrupt), reviewCount), reviewCount;
    }
    r := Success(|messages|, reviewCount, extraction.written, messages, report.value);
  }

  /** `run_workflow`: a fresh orchestrator with a limit of 5, so at most one review round. */
  method RunWorkflow(request: Option<string>, env: Environment) returns (r: WorkflowResult)
    ensures r.reviewIterations == 0 || r.reviewIterations == 1
    ensures r.Success? ==>
              && |r.messages| > 2 + ReviewIndex
              && (|r.messages| == 2 + |RetryPipeline| <==> Contains(r.messages[2 + ReviewIndex].content, FixMarker))
    ensures r.Success? ==> (r.reviewIterations == 1 <==> |r.messages| == 2 + |RetryPipeline|)
    ensures r.Success? <==>
              && request.Some? && !IsBlank(request.value) && env.setup.None?
              && RunStages(env.agents, Opening(request.value), 0, 5).fault.None?
              && env.workspaceFault.None? && !env.tests.TestsInterrupted?
    ensures r.Success? ==> r.messages == RunStages(env.agents, Opening(request.value), 0, 5).messages
    ensures r.Success? ==>
              var shown := r.messages[..2 + ReviewIndex];
              && !env.agents(Review, shown).Raises?
              && r.messages[2 + ReviewIndex] == Message(Assistant, ReplyText(env.agents(Review, shown)))
  {
    var count;
    r, count := InitiateWorkflow(Orchestrator(5, 0), request, env);
    if r.Success? {
      ReviewAnswered(env.agents, Opening(request.value), 0, 5);
    }
  }

  /** When the loop runs to the end, the transcript holds the review's reply at index 2 after the opening. */
  lemma ReviewAnswered(agents: Agents, opening: seq<Message>, count0: int, maxReview: int)
    ensures var run := RunStages(agents, opening, count0, maxReview);
            run.fault.None? ==>
              && |run.messages| > |opening| + ReviewIndex
              && var shown := run.messages[..|opening| + ReviewIndex];
              && !agents(Review, shown).Raises?
              && run.messages[|opening| + ReviewIndex] == Message(Assistant, ReplyText(agents(Review, shown)))
  {
    var run := RunStages(agents, opening, count0, maxReview);
    if run.fault.None? {
      ReviewOnlyAtTwo(run.pipeline, ReviewIndex);
      assert Answered(agents, run.pipeline, run.messages, |opening|, ReviewIndex);
    }
  }

  // ---------------------------------------------------------------------------
  // Properties of the transcript's opening
  // ---------------------------------------------------------------------------

  const EndTag: string := "===END_FILE==="

  /** `s` has no newline that is directly followed by `=`. */
  predicate NoNewlineBeforeEquals(s: string) {
    forall k :: 0 <= k < |s| - 1 && s[k] == '\n' ==> s[k + 1] != '='
  }

  /** A line the prompt head is made of: no newline, and empty or starting with a space. */
  predicate PlainLine(l: string) {
    '\n' !in l && (|l| == 0 || l[0] == ' ')
  }

  lemma {:induction false} JoinPlainLines(lines: seq<string>)
    requires |lines| >= 1
    requires forall k :: 0 <= k < |lines| ==> PlainLine(lines[k])
    ensures var s := Join(lines, '\n');
            NoNewlineBeforeEquals(s) && (|s| == 0 || s[0] == ' ' || s[0] == '\n')
    decreases |lines|
  {
    if |lines| > 1 {
      JoinPlainLines(lines[1..]);
      var head, tail := lines[0], Join(lines[1..], '\n');
      var s := head + ['\n'] + tail;
      assert Join(lines, '\n') == s;
      forall k | 0 <= k < |s| - 1
        ensures s[k] == '\n' ==> s[k + 1] != '='
      {
        if k < |head| {
          assert s[k] == head[k];
        } else if k > |head| {
          assert s[k] == tail[k - |head| - 1] && s[k + 1] == tail[k - |head|];
        }
      }
    }
  }

  /** An indented line is plain when its text has no newline. */
  lemma IndentedPlain(t: string)
    requires '\n' !in t
    ensures PlainLine(Indent + t)
  {
    assert (Indent + t)[0] == Indent[0];
  }

  // The lines of the head by part: the introduction, the rules heading, the file
  // template, and the closing instructions.

  lemma IntroLinePlain()
    ensures PlainLine(PromptHead[1])
  {
    IndentedPlain("You are Controller_agent in a " + "multi-agent software factory.");
  }

  lemma RulesLinesPlain()
    ensures PlainLine(PromptHead[3]) && PlainLine(PromptHead[4])
  {
    IndentedPlain("Rules:");
    IndentedPlain("- Always produce files using:");
  }

  lemma TemplateLinesPlain()
    ensures PlainLine(PromptHead[5]) && PlainLine(PromptHead[6]) && PlainLine(PromptHead[7])
  {
    IndentedPlain("===BEGIN_FILE:filename===");
    IndentedPlain("<content>");
    IndentedPlain("===END_FILE===");
  }

  lemma InstructionLinesPlain()
    ensures PlainLine(PromptHead[9]) && PlainLine(PromptHead[10]) && PlainLine(PromptHead[12])
  {
    IndentedPlain("- Never respond empty.");
    IndentedPlain("- Instruct next agent clearly.");
    IndentedPlain("User Request:");
  }

  /** Every line of the head is plain. */
  lemma PromptHeadPlain()
    ensures forall k :: 0 <= k < |PromptHead| ==> PlainLine(PromptHead[k])
  {
    IntroLinePlain();
    RulesLinesPlain();
    TemplateLinesPlain();
    InstructionLinesPlain();
  }

  /** The part of the system message before the request. */
  function PromptBefore(): string {
    Join(PromptHead, '\n') + "\n" + Indent
  }

  lemma PromptBeforeGuarded()
    ensures NoNewlineBeforeEquals(PromptBefore()) && PromptBefore()[|PromptBefore()| - 1] == ' '
  {
    PromptHeadPlain();
    JoinPlainLines(PromptHead);
    var j := Join(PromptHead, '\n');
    var s := j + "\n" + Indent;
    forall k | 0 <= k < |s| - 1
      ensures s[k] == '\n' ==> s[k + 1] != '='
    {
      if k < |j| - 1 {
        assert s[k] == j[k] && s[k + 1] == j[k + 1];
      } else if k > |j| {
        assert s[k] == Indent[k - |j| - 1];
      }
    }
  }

  /** Every occurrence of the end marker in the system message lies inside the request. */
  lemma MarkerOnlyInRequest(request: string, p: int)
    ensures var s := SystemPrompt(request);
            var h := |PromptBefore()|;
            OccursAt(s, EndMarker, p) ==> OccursAt(request, EndMarker, p - h)
  {
    var before := PromptBefore();
    var h := |before|;
    var s := SystemPrompt(request);
    var e := h + |request|;
    assert s == before + request + ("\n" + Indent);
    if p < 0 || p + |EndMarker| > |s| {
    } else if p < h {
      HeadHasNoMarker(request, p);
    } else if p < e < p + |EndMarker| {
      StraddleHasNoMarker(request, p);
    } else {
      assert s[p..p + |EndMarker|] == request[p - h..p - h + |EndMarker|];
    }
  }

  /** No end marker starts in the part of the system message before the request. */
  lemma HeadHasNoMarker(request: string, p: nat)
    requires p < |PromptBefore()|
    ensures !OccursAt(SystemPrompt(request), EndMarker, p)
  {
    var before := PromptBefore();
    var h := |before|;
    var s := SystemPrompt(request);
    assert s == before + (request + ("\n" + Indent));
    PromptBeforeGuarded();
    if p + |EndMarker| <= |s| {
      assert EndMarker[0] == '\n' && EndMarker[1] == '=';
      if p < h - 1 {
        assert s[p] == before[p] && s[p + 1] == before[p + 1];
      } else {
        assert s[p] == before[h - 1] == ' ';
      }
    }
  }

  /** No end marker starts inside the request and runs past its end, where a newline follows. */
  lemma StraddleHasNoMarker(request: string, p: nat)
    requires |PromptBefore()| <= p < |PromptBefore()| + |request| < p + |EndMarker|
    ensures !OccursAt(SystemPrompt(request), EndMarker, p)
  {
    var before := PromptBefore();
    var s := SystemPrompt(request);
    var e := |before| + |request|;
    assert s == (before + request) + ("\n" + Indent);
    if p + |EndMarker| <= |s| {
      assert s[e] == '\n';
      assert EndMarker == "\n" + EndTag;
      assert '\n' !in EndTag;
      assert EndMarker[e - p] == EndTag[e - p - 1];
      assert EndTag[e - p - 1] in EndTag;
    }
  }

  /** The system message holds an end marker exactly when the request does. */
  lemma SystemPromptMarker(request: string)
    ensures Contains(SystemPrompt(request), EndMarker) <==> Contains(request, EndMarker)
  {
    var s := SystemPrompt(request);
    var before := PromptBefore();
    assert s == before + request + ("\n" + Indent);
    forall p | 0 <= p <= |s| - |EndMarker| && OccursAt(s, EndMarker, p)
      ensures Contains(request, EndMarker)
    {
      MarkerOnlyInRequest(request, p);
    }
    forall i | 0 <= i <= |request| - |EndMarker| && OccursAt(request, EndMarker, i)
      ensures Contains(s, EndMarker)
    {
      OccursInConcat(before, request, EndMarker, i);
      OccursInConcat(before + request, "\n" + Indent, EndMarker, |before| + i);
    }
  }

  /** A message without a newline holds no end marker. */
  lemma NoNewlineNoMarker(s: string)
    requires '\n' !in s
    ensures !Contains(s, EndMarker)
  {
    assert EndMarker[0] == '\n';
    forall p | 0 <= p <= |s| - |EndMarker|
      ensures !OccursAt(s, EndMarker, p)
    {
      assert s[p] in s;
    }
  }

  /** Messages without an end marker yield no block at all. */
  lemma {:induction false} NoMarkerNoBlocks(messages: seq<string>)
    ensures (forall k :: 0 <= k < |messages| ==> !Contains(messages[k], EndMarker)) ==> MessageBlocks(messages) == []
    decreases |messages|
  {
    if |messages| > 0 {
      BlocksNeedEndMarker(messages[0]);
      NoMarkerNoBlocks(messages[1..]);
      assert forall k :: 0 <= k < |messages| - 1 ==> messages[1..][k] == messages[k + 1];
    }
  }

  lemma SeedHasNoMarker()
    ensures !Contains(Seed, EndMarker)
  {
    NoNewlineNoMarker(Seed);
  }


  /** Distinct faults of these kinds give distinct error texts, so the text determines the fault. */
  lemma ErrorTextKeepsMessage(f: Fault, g: Fault)
    requires f.TimeoutError? || f.ValueError? || f.ConnectionError?
    requires g.TimeoutError? || g.ValueError? || g.ConnectionError?
    ensures ErrorText(f) == ErrorText(g) ==> f == g
  {
    var a, b := ErrorText(f), ErrorText(g);
    match f
    case TimeoutError(m) =>
      match g {
        case TimeoutError(n) => assert m == a[20..] && n == b[20..];
        case ValueError(_) => assert a[0] != b[0];
        case ConnectionError(_) => assert a[0] != b[0];
      }
    case ValueError(m) =>
      match g {
        case TimeoutError(_) => assert a[0] != b[0];
        case ValueError(n) => assert m == a[21..] && n == b[21..];
        case ConnectionError(_) => assert a[3] != b[3];
      }
    case ConnectionError(m) =>
      match g {
        case TimeoutError(_) => assert a[0] != b[0];
        case ValueError(_) => assert a[3] != b[3];
        case ConnectionError(n) => assert m == a[18..|a| - 40] && n == b[18..|b| - 40];
      }
  }
}

=== FILE: wrappers.dfy ===
/** The optional-value datatype shared by the other modules: Python's `None` or a value. */
module Wrappers {

  datatype Option<+T> = None | Some(value: T) {

    /** The value, or `default` when there is none. */
    function GetOr(default: T): T {
      match this
      case Some(v) => v
      case None => default
    }
  }
}
